=== FILE: README.md ===
# Hackathon dashboard core, modelled in Dafny

This project models the in-memory data pipeline of a Next.js dashboard for
Colosseum hackathon projects, and proves properties about it. The pipeline
covers five pieces:

- **The table view** (`app/page.tsx`):
  - the track-name normalisation applied to the fetched projects;
  - the Fisher–Yates shuffle behind the "random" order;
  - the seven-way filter and the likes and name sorts;
  - pagination and the pagination controls;
  - the three places the slider ranges are set.
- **The analytics view** (`app/analytics.tsx`):
  - the metric cards;
  - the track, country and team-size distributions;
  - the top ten projects by engagement;
  - the active-filter badges;
  - the "Key Insights" comparisons.
- **The cleaning step** of the projects API route (`app/api/projects/route.ts`, lines 20-22).
- **The hackathon registry** (`lib/hackathons.ts`).
- **The slug extraction** of the hackathon selector (`components/hackathon-selector.tsx`).

Every operation is a pure function over immutable datatypes and sequences.

Modules, one per file:

| module | file | what it holds |
|---|---|---|
| `Common` | `common.dfy` | `Option`, an order-preserving `Filter` (`Array.prototype.filter`), the subsequence relation, `Take` (`slice(0, n)`), sums and flattening |
| `Sorting` | `sorting.dfy` | `Array.prototype.sort` with a key comparator. It is stable since ECMAScript 2019, modelled as an insertion sort with proved permutation, order and stability |
| `Tally` | `tally.dfy` | the `forEach` that counts and sums into an object keyed by category. It is modelled as a left fold and proved equal to a declarative definition: one entry per distinct key in first-occurrence order, with that key's count and weight sum |
| `Projects` | `projects.dfy` | the project record, link truthiness, and `mapTrackName` / `mappedProjects` |
| `Shuffle` | `shuffle.dfy` | `shuffleArray`, with the random draws as an input |
| `Filters` | `filters.dfy` | the filter state, the seven criteria, the sort modes, and the initial, post-fetch and cleared slider ranges |
| `Digits` | `digits.dfy` | `toString` and `parseInt` on the page-number box |
| `Pagination` | `pagination.dfy` | page count, page slice, and the first/prev/next/last, box and page-size controls |
| `Analytics` | `analytics.dfy` | metrics, distributions, top projects and the active-filter list |
| `Insights` | `insights.dfy` | best average by track and by country, most common team size, and the comparisons with all projects |
| `Validation` | `validation.dfy` | the API route's record filter, over a model of JSON values |
| `Hackathons` | `hackathons.dfy` | the registry table and its first-match lookups |
| `Selector` | `selector.dfy` | pathname splitting, the current slug and the current hackathon |

Conventions:

- **Averages and percentages** are exact fractions (`Analytics.Ratio`, or a `Tally.Stat` holding a total and a count). They are compared by cross-multiplication.
- **Divisions by zero**: where JavaScript would produce NaN or an infinity, the model returns `None`.
- **Unmodelled inputs**: the random draws of the shuffle and the `localeCompare` order are parameters.
- **Behaviour worth knowing**, which the model keeps as the code has it:
  - **Page count.** The page count is `Math.ceil(n / itemsPerPage)`, which is 0 for an empty list. Only the label shows `totalPages || 1`.
  - **Page clamping.** The current page is never clamped when the filters change (`Pagination.StalePageShowsNothing`). The Next and Last buttons can even set it to 0 (see Findings).
  - **Most-common-size ties.** `Object.entries` lists integer keys in ascending order and the sort is stable, so among equally common team sizes the smallest wins (`Insights.MostCommonTeamSizeCorrect`).
  - **Likes range.** The likes range is never listed as an active filter. A likes range on its own therefore never opens the insights card (`Analytics.LikesRangeAloneHidesInsights`).

## Model

| member | source | states |
|---|---|---|
| `Projects.MapTrackName` | app/page.tsx:108-111 | "Consumer Apps" becomes "Consumer", every other name is unchanged, and the result is never "Consumer Apps" |
| `Projects.MapTrackNameIdempotent` | app/page.tsx:108-111 | normalising a track name twice equals normalising it once |
| `Projects.MappedProjects` | app/page.tsx:490-496 | no data gives no projects; otherwise the same number of projects, each identical to its source except that every track is normalised |
| `Projects.MappedProjectsIdempotent` | app/page.tsx:490-496 | normalising an already normalised list changes nothing |
| `Projects.MappedProjectsNoConsumerApps` | app/page.tsx:490-496 | after normalisation no project carries "Consumer Apps" |
| `Shuffle.Swap` | app/page.tsx:443 | the destructuring swap exchanges exactly positions i and j and keeps the multiset |
| `Shuffle.ShuffleFrom` | app/page.tsx:440-443 | the loop from iteration i down keeps length and multiset for any in-range draws |
| `Shuffle.ShuffleArray` | app/page.tsx:438-445 | for any draws with the k-th draw in [0, n-1-k], the shuffle is a permutation of its input |
| `Shuffle.ShuffleStay` | app/page.tsx:438-445 | draws that each pick their own index leave the list unchanged |
| `Filters.ToLower` | app/page.tsx:515 | the lower-cased text has the same length, contains no capital A-Z, and keeps every character that is not a capital letter |
| `Filters.ToLowerIdempotent` | app/page.tsx:515 | lower-casing an already lower-cased text changes nothing |
| `Filters.ToLowerCaseBlind` | app/page.tsx:515 | texts that differ only in the case of their letters lower-case to the same string, so the search is case-insensitive |
| `Filters.IncludesAtOffset` | app/page.tsx:515 | `includes` holds iff the term occurs at some offset of the text |
| `Filters.IncludesEmpty` | app/page.tsx:515 | the empty search term is included in every text |
| `Filters.FilterAll` | app/page.tsx:514-529 | every kept project satisfies all seven criteria |
| `Filters.FilterAllExact` | app/page.tsx:514-529 | the filtered list is an order-preserving subsequence of the source, and keeps every occurrence of a matching project and nothing else |
| `Filters.FilterAllIdempotent` | app/page.tsx:514-529 | filtering twice equals filtering once |
| `Filters.LinkModesComplement` | app/page.tsx:522-527 | "with-links" and "without-links" are complements; "all" accepts every project |
| `Filters.LinkModesPartition` | app/page.tsx:522-527 | the two link modes split the "all" result between them: their counts add up to its size |
| `Filters.EmptySelectionsMatch` | app/page.tsx:516-517 | an empty track or country selection imposes no restriction |
| `Filters.NeutralSpecMatches` | app/page.tsx:514-529 | empty search and selections, university off, links "all" and ranges containing the project's values match it (bounds inclusive) |
| `Filters.MaxOf` | app/page.tsx:507-508 | `Math.max(...s, floor)` is at least the floor, at least every element, and equal to the floor or an element |
| `Filters.LoadedSpec` | app/page.tsx:467-472 | after a fetch with projects, the ranges are [1, largest team] and [0, most likes]: every project lies inside and both maxima are attained; with no projects nothing changes; other fields are untouched |
| `Filters.ClearedSpec` | app/page.tsx:773-780 | "Clear All Filters" keeps the search term, empties the selections, turns off university and links, and sets the ranges to [1, max(largest team, 10)] and [0, max(most likes, 100)] |
| `Filters.ClearedSpecMatchesAll` | app/page.tsx:773-780 | with an empty search box, the cleared filters let through every project that has at least one member and non-negative likes |
| `Filters.FilteredAndSorted` | app/page.tsx:510-548 | results all match; random mode is the filtered shuffled list in shuffled order; the other modes hold exactly the filtered mapped projects, non-increasing in likes or in the negated collation key |
| `Filters.SortedStillMatch` | app/page.tsx:538-547 | sorting a list of matching projects yields only matching projects |
| `Filters.NameSortAscending` | app/page.tsx:542-543 | the name sort is ascending in the collation order |
| `Filters.SortedModesExact` | app/page.tsx:510-547 | in the sorted modes each project occurs as often as it matches in the normalised list |
| `Digits.NatToString` | app/page.tsx:487 | `toString` of a page number is a non-empty digit string |
| `Digits.ParseDigits` | app/page.tsx:566 | `parseInt` gives a number iff the box holds a non-empty digit string |
| `Digits.ParseNatToString` | app/page.tsx:566 | parsing a printed page number gives the number back |
| `Pagination.TotalPages` | app/page.tsx:551 | the page count is the ceiling of n / itemsPerPage, and 0 exactly for an empty list |
| `Pagination.DisplayedTotal` | app/page.tsx:1114 | the label `totalPages \|\| 1` is at least 1 and equals the page count when there are pages |
| `Pagination.SliceIndex` | app/page.tsx:554 | `slice` clamps a non-negative index to the length; a negative index -k lands k places before the end, or at 0 when k exceeds the length |
| `Pagination.PageContents` | app/page.tsx:551-554 | page p is list[min((p-1)·ipp, n) .. min(p·ipp, n)], has at most ipp items, and is non-empty up to the last page |
| `Pagination.FirstPagesFlatten` | app/page.tsx:551-554 | pages 1..m laid end to end are the first min(m·ipp, n) items |
| `Pagination.PagesCoverList` | app/page.tsx:551-554 | pages 1..totalPages concatenated reconstruct the list exactly |
| `Pagination.SetPage` | app/page.tsx:485-488 | setting the page copies it into the box only when it changes |
| `Pagination.PageInputChange` | app/page.tsx:557-562 | the box accepts a value iff it is all digits |
| `Pagination.PageInputSubmit` | app/page.tsx:565-573 | a page in [1, totalPages] becomes current, and only one that was typed; anything else resets the box to the current page |
| `Pagination.PrevPage` | app/page.tsx:1093 | "previous" never goes below 1 and steps back by one above page 1 |
| `Pagination.NextPageAsWritten` | app/page.tsx:1120 | "next" as written never exceeds totalPages and steps forward by one below it |
| `Pagination.NextPageAsWrittenLeavesRange` | app/page.tsx:1120-1121 | with zero pages, "next" on page 1 moves to page 0 |
| `Pagination.PageZeroShowsNothing` | app/page.tsx:552-554 | page 0 shows no project, whatever the list |
| `Pagination.StalePageShowsNothing` | app/page.tsx:551-554 | a current page beyond the page count of a shrunken list shows nothing |
| `Pagination.NextPage` | app/page.tsx:1120-1121 | corrected "next": within [1, max(totalPages, 1)], otherwise the same as written |
| `Pagination.LastPage` | app/page.tsx:1129-1130 | corrected "last": at least 1, the last page when there is one, and a page that "next" leaves in place |
| `Pagination.Step` | app/page.tsx:1050-1130 | the pagination bar with the corrected next/last: "first" goes to page 1, "next" below the last page advances by one, "last" goes to the displayed last page, while on the last page next and last do nothing, typing keeps the page, and a page-size change sets the size and resets to page 1 |
| `Pagination.StepAsWritten` | app/page.tsx:1050-1130 | the pagination bar as written: "last" goes to `totalPages`, and with at least one page and a page ≥ 1 it behaves exactly like the corrected bar |
| `Pagination.StepPreservesGood` | app/page.tsx:1050-1130 | with the corrected next/last, every pagination control keeps the page ≥ 1, the box all digits and the page size positive; a page-size change resets to page 1 |
| `Pagination.StepStaysInRange` | app/page.tsx:1080-1130 | with at least one page, every control of the bar as written keeps the page in [1, totalPages], and agrees with the corrected bar |
| `Pagination.StepAsWrittenBreaksGood` | app/page.tsx:1120-1130 | with zero pages, "next" and "last" of the bar as written take page 1 to page 0 |
| `Pagination.HandleShuffle` | app/page.tsx:448-453 | with projects loaded, shuffling yields a permutation and page 1; otherwise nothing changes |
| `Pagination.InitialShuffle` | app/page.tsx:499-503 | the first shuffle happens only while nothing is shuffled yet, and is a permutation |
| `Sorting.Insert` | app/page.tsx:539-541 | one insertion step adds exactly the new element |
| `Sorting.InsertSorted` | app/page.tsx:539-541 | inserting into a non-increasing list keeps it non-increasing |
| `Sorting.SortDesc` | app/page.tsx:539-541 | the sort is a permutation and non-increasing in the key |
| `Sorting.SortDescMembers` | app/page.tsx:539-541 | the sorted list has exactly the input's elements |
| `Sorting.SortDescSum` | app/analytics.tsx:99-101 | sorting keeps every sum over the elements |
| `Sorting.SortDescDistinct` | app/analytics.tsx:99-101 | sorting keeps distinct identities distinct |
| `Sorting.SortDescStable` | app/page.tsx:539-541 | elements with equal keys keep their input order (stable sort) |
| `Common.FilterIsSubseq` | app/api/projects/route.ts:21 | `filter` yields an order-preserving subsequence |
| `Common.FilterMultiset` | app/api/projects/route.ts:21 | `filter` keeps every occurrence of a passing element and none of a failing one |
| `Common.FilterIdempotent` | app/api/projects/route.ts:21 | filtering twice by the same predicate equals filtering once |
| `Common.FilterFirst` | components/hackathon-selector.tsx:12-13 | the first kept element is the first passing element of the input |
| `Common.Take` | app/analytics.tsx:114 | `slice(0, n)` keeps at most n elements, a prefix, all of them when there are at most n |
| `Common.SumOfAppend` | app/analytics.tsx:76 | a `reduce` sum over a concatenation is the sum of the parts |
| `Tally.Dedup` | app/analytics.tsx:92-98 | the distinct keys: exactly the input's keys, without repetition |
| `Tally.TallyCorrect` | app/analytics.tsx:92-98 | the counting `forEach` equals one entry per distinct key in first-occurrence order, with that key's count and weight sum |
| `Tally.TallyEntries` | app/analytics.tsx:92-98 | a key has an entry iff it occurs; entries are distinct; each holds the key's positive count and weight sum |
| `Tally.TallyCountSum` | app/analytics.tsx:92-98 | the counts add up to the number of items |
| `Tally.CountOfIsMultiplicity` | app/analytics.tsx:95 | a key's count is its multiplicity among the item keys |
| `Tally.TallyRows` | app/analytics.tsx:92-99 | the tally has one row per distinct key |
| `Tally.Ranked` | app/analytics.tsx:99-101 | the sorted tally is a permutation of the tally, non-increasing in the sort key |
| `Tally.RankedEntries` | app/analytics.tsx:99-101 | the sorted tally has distinct keys, each with its positive number of occurrences |
| `Tally.RankedKeys` | app/analytics.tsx:99-101 | the sorted tally lists exactly the keys that occur |
| `Tally.RankedCountSum` | app/analytics.tsx:99-101 | the sorted tally's counts add up to the number of items |
| `Analytics.IdsOf` | app/analytics.tsx:74 | a team's id set has at most one id per member and holds exactly the members' ids |
| `Analytics.MemberIds` | app/analytics.tsx:74 | the distinct participants are at most the sum of team sizes |
| `Analytics.MemberIdsExact` | app/analytics.tsx:74 | an id is counted iff some filtered project has a member with that id |
| `Analytics.Countries` | app/analytics.tsx:86 | the country set holds exactly the filtered projects' countries, at most one per project |
| `Analytics.WithLinks` | app/analytics.tsx:77 | the projects with a link are at most all projects |
| `Analytics.WithLinksExact` | app/analytics.tsx:77 | the projects with a link are all projects minus those without |
| `Analytics.ComputeMetrics` | app/analytics.tsx:73-88 | the metric cards: the project count; the number of distinct member ids, at most the sum of team sizes; the average team size over the project count; the total of likes plus comments; the completion rate in [0, 100] before rounding; the number of distinct countries, at most the project count; all zero for an empty list |
| `Analytics.EngagementTotals` | app/analytics.tsx:76 | total engagement adds over concatenation and is non-negative for non-negative counters |
| `Analytics.ProjectTrackItems` | app/analytics.tsx:93-96 | one counting item per track tag of the project |
| `Analytics.TrackItemKeys` | app/analytics.tsx:93-97 | the counted keys are all track tags, in visiting order |
| `Analytics.CountryItemsCount` | app/analytics.tsx:107-109 | a country is counted once per project from it, and its total is those projects' engagement |
| `Analytics.SizeItemsCount` | app/analytics.tsx:120-123 | a team size is counted once per project of that size, and its total is those projects' engagement |
| `Analytics.TrackDataCorrect` | app/analytics.tsx:91-102 | each track appears once with its number of tags; the tracks are exactly those carried; the values sum to the number of tags and are non-increasing |
| `Analytics.TrackDataTies` | app/analytics.tsx:99-101 | tracks with equal counts keep first-occurrence order |
| `Analytics.CountryDataCorrect` | app/analytics.tsx:105-115 | min(10, #countries) rows, distinct countries, each with its number of projects, non-increasing |
| `Analytics.CountryDataCutoff` | app/analytics.tsx:111-114 | no country left out of the top ten has more projects than any country shown |
| `Analytics.RankedRows` | app/analytics.tsx:105-113 | the country ranking has one row per distinct country |
| `Analytics.TeamSizeDataCovers` | app/analytics.tsx:118-128 | every project's size has a row with its number of projects |
| `Analytics.TeamSizeDataAscending` | app/analytics.tsx:125-127 | the sizes are strictly ascending |
| `Analytics.TeamSizeDataCorrect` | app/analytics.tsx:118-128 | sizes strictly ascending and each present once with its count; every project's size present; counts sum to the number of projects |
| `Analytics.TopProjectsCorrect` | app/analytics.tsx:131-142 | exactly min(10, number of filtered projects) projects drawn from the filtered list, non-increasing in engagement, all when ≤ 10, and no omitted project above the last one shown |
| `Analytics.ActiveFiltersList` | app/analytics.tsx:145-156 | one badge per selected track and country, then one each for a team-size range other than [1, 10], university only, a link mode and a non-empty search term |
| `Analytics.InsightsShownExactly` | app/analytics.tsx:239 | the insights card shows iff some listed filter is active and some project matches |
| `Analytics.LikesRangeAloneHidesInsights` | app/analytics.tsx:145-156 | a likes range alone produces no badge |
| `Analytics.LoadedSpecListsTeamSize` | app/analytics.tsx:149-151 | after loading projects whose largest team is below 10, the untouched team-size slider already counts as a filter |
| `Insights.AvgAtMostTrans` | app/analytics.tsx:182-184 | comparing averages by cross-multiplication is transitive |
| `Insights.BestIndex` | app/analytics.tsx:182-184 | the head of the stable sort by average: no entry has a higher average, and every earlier entry has a strictly lower one |
| `Insights.BestIndexUnique` | app/analytics.tsx:182-184 | exactly one position has both properties |
| `Insights.TopByAverage` | app/analytics.tsx:172-184 | there is a best category iff there is at least one item |
| `Insights.TopByAverageCorrect` | app/analytics.tsx:172-184 | the winner is an occurring key with its own total and count, and no key has a higher average |
| `Insights.TopByAverageTies` | app/analytics.tsx:182-184 | among equal averages the first key met wins |
| `Insights.TopTrack` | app/analytics.tsx:172-184 | there is a top track iff some filtered project has a track |
| `Insights.TopCountry` | app/analytics.tsx:187-197 | there is a top country iff the filtered list is non-empty |
| `Insights.TopTrackCorrect` | app/analytics.tsx:172-184 | the top track is carried by some project, with its tag count, and no track has a higher average engagement |
| `Insights.TopCountryCorrect` | app/analytics.tsx:187-197 | the top country is some project's country, and no country has a higher average engagement |
| `Insights.MostCommonTeamSize` | app/analytics.tsx:200-205 | the most common size is absent iff the filtered list is empty |
| `Insights.MostCommonTeamSizeCorrect` | app/analytics.tsx:200-205 | the winner is some project's size with its count; no size is more common; no smaller size is as common |
| `Insights.MostCommonIsRow` | app/analytics.tsx:200-205 | the winner is some project's size, with its number of projects |
| `Insights.MostCommonBeats` | app/analytics.tsx:200-205 | a given project's size is no more common than the winner, and if as common, not smaller |
| `Insights.MostCommonTie` | app/analytics.tsx:205 | the stable sort by count puts first the earliest entry with the top count |
| `Insights.AvgEngagement` | app/analytics.tsx:163-168 | the average engagement is the metric card's total engagement over the project count, and 0 for no projects |
| `Insights.AvgTeamSize` | app/analytics.tsx:162-169 | the average team size is the metric card's team-size sum over the project count, and 0 for no projects |
| `Insights.CompletionRate` | app/analytics.tsx:164-165 | the completion rate equals the metric card's unrounded rate, 100 × projects with a link / project count, and lies in [0, 100] |
| `Insights.PercentChange` | app/analytics.tsx:208-209 | the relative change is undefined iff the overall average is 0; otherwise it equals 100·(f − a)/a, is zero iff the averages are equal, and positive iff the filtered average is higher (positive base) |
| `Insights.SelfComparison` | app/analytics.tsx:208-209 | comparing a list of projects with itself reports a change of 0 wherever a change is defined |
| `Insights.RoundHalfUp` | app/analytics.tsx:78 | `toFixed(0)` of a non-negative value is the nearest integer, halves up |
| `Insights.CompletionDiff` | app/analytics.tsx:210 | the completion difference is over the overall rate's denominator |
| `Insights.CompletionDiffRounding` | app/analytics.tsx:78-210 | the rounded filtered rate shows through: three projects, one with a link, compared with themselves give -1/3 of a point |
| `Insights.CompletionDiffSelfWhole` | app/analytics.tsx:210 | when the rate is a whole percentage, a list compared with itself gives 0 |
| `Insights.ComputeInsights` | app/analytics.tsx:159-217 | the insights memo: the engagement change is undefined exactly when the overall engagement sum is 0 and the team-size change exactly when the overall team-size sum is 0; both averages shown are those of the filtered and of all projects; each best-of is absent exactly when there is nothing to rank |
| `Validation.Get` | app/api/projects/route.ts:21 | a property read yields undefined on non-objects and on missing fields |
| `Validation.KeptRecordsAreObjects` | app/api/projects/route.ts:21 | only objects with `name`, `id` and `slug` fields can pass |
| `Validation.CleanProjects` | app/api/projects/route.ts:21 | every kept record has a truthy name, a defined id and a truthy slug |
| `Validation.CleanProjectsExact` | app/api/projects/route.ts:21 | kept records keep their order, and no record meeting all three conditions is dropped |
| `Validation.CleanProjectsIdempotent` | app/api/projects/route.ts:21 | cleaning twice equals cleaning once |
| `Validation.CleanBody` | app/api/projects/route.ts:20-22 | a null body fails as the 500 response; without a `projects` array the body passes unchanged; otherwise only `projects` changes, to its cleaned array |
| `Validation.CleanBodyIdempotent` | app/api/projects/route.ts:20-22 | cleaning a cleaned body changes nothing |
| `Hackathons.Find` | lib/hackathons.ts:46 | `find` yields nothing iff no entry passes, otherwise the first passing entry |
| `Hackathons.BySlug` | lib/hackathons.ts:45-47 | nothing iff no entry has the slug, otherwise the first entry with it |
| `Hackathons.ById` | lib/hackathons.ts:53-55 | nothing iff no entry has the id, otherwise the first entry with it |
| `Hackathons.Default` | lib/hackathons.ts:49-51 | the first default entry when one exists, else the first entry (nothing only for an empty table) |
| `Hackathons.BySlugFindsEntry` | lib/hackathons.ts:45-47 | with distinct slugs, looking up an entry's slug finds that entry |
| `Hackathons.ByIdFindsEntry` | lib/hackathons.ts:53-55 | with distinct ids, looking up an entry's id finds that entry |
| `Hackathons.TableFacts` | lib/hackathons.ts:10-51 | the table's slugs and ids are distinct, only the first entry is default, and the default is the "cypherpunk" entry |
| `Selector.Split` | components/hackathon-selector.tsx:12 | `split("/")` yields one more piece than there are separators, none containing "/" |
| `Selector.JoinSplit` | components/hackathon-selector.tsx:12 | joining the pieces with "/" gives the path back |
| `Selector.SplitNoSlash` | components/hackathon-selector.tsx:12 | text without "/" splits into itself alone |
| `Selector.PathSegments` | components/hackathon-selector.tsx:12 | no segment is empty or holds "/"; a null pathname gives none |
| `Selector.CurrentSlug` | components/hackathon-selector.tsx:13 | the current slug is never empty and holds no "/" |
| `Selector.CurrentSlugIsFirstSegment` | components/hackathon-selector.tsx:12-13 | the current slug is the first non-empty segment; every segment before it is empty |
| `Selector.CurrentSlugDefault` | components/hackathon-selector.tsx:12-13 | with no non-empty segment (or no pathname) the slug is "cypherpunk" |
| `Selector.PathFor` | components/hackathon-selector.tsx:16 | the pushed path is "/" followed by exactly the slug |
| `Selector.SlugRoundTrip` | components/hackathon-selector.tsx:12-16 | reading the slug back from "/" + s gives s, for a non-empty s without "/" |
| `Selector.CurrentHackathon` | components/hackathon-selector.tsx:19 | the current hackathon, when present, is a table entry with the current slug, and is absent iff no entry has it |
| `Selector.ChoosingShowsChoice` | components/hackathon-selector.tsx:15-19 | choosing any listed hackathon makes it the current one |
| `Selector.NoPathShowsDefault` | components/hackathon-selector.tsx:12-19 | without a pathname the selector shows the registry's default hackathon |

## Left out

- Fetching and HTTP are not modelled. That covers the upstream request, the error response and cache headers (app/api/projects/route.ts:5-18 and 25-34), and the client fetch with its loading and error state (app/page.tsx:456-482). The parsed body is an input.
- React rendering, hooks scheduling, the spotlight dialog, confetti, skeletons and the chart components are UI, not logic. State updates are modelled as functions from old to new state. The `useEffect` that copies the page into the box is folded into `Pagination.SetPage`.
- `Math.random` is not modelled. The shuffle's draws are an input, and the spotlight's random pick (app/page.tsx:238-253) is left out.
- Floating point is not modelled:
  - averages, percentages and `toFixed` are exact rationals;
  - `Insights.RoundHalfUp` rounds the exact quotient, not its binary approximation;
  - `toFixed(1)` of the differences, and the signs and colours drawn from them, are not modelled.
- `localeCompare` is an abstract collation key (a parameter giving a total preorder). Unicode locale rules are not modelled.
- `toLowerCase` is modelled on ASCII letters only.
- Filters.Matches: reads `likes` as an integer. So `(p.likes || 0)` in the analytics and a missing or NaN `likes` are not modelled.
- Tally.TallyCorrect: the source counts into plain `{}` objects (app/analytics.tsx:92-95, 106-108, 172-178, 187-192, 200-203), so a track or country named like an `Object.prototype` member ("constructor", "toString", "__proto__") reads an inherited value and is mis-counted or dropped. The model treats every track and country name as a fresh key, so this tally and the distributions and best-of results built on it assume such names do not occur.
- `Object.entries` normally lists string keys in insertion order, and the model assumes that for tracks and countries. A track or country named like an array index ("123") would be listed first in the source. The model does not represent that.
- Team-size labels (`"3 members"`) and the fields copied into `topProjects` are presentation. Rows carry the size and the whole project instead.
- The filter-count badge on the filter button (app/page.tsx:635-647) and the option lists `allTracks` / `allCountries` (app/page.tsx:505-506) are UI.
- Validation.JsValue: numbers are integers. NaN and fractional values are not represented; `id !== undefined` does not depend on them.
- Insights.CompletionDiff: its contract only fixes the denominator. What it computes is stated by `Insights.CompletionDiffRounding` and `Insights.CompletionDiffSelfWhole`, because a closed-form bound on the rounding error needs non-linear arithmetic the solver handles poorly.
- components/announcement-banner.tsx, app/layout.tsx, next.config.mjs and the `require("recharts")` guard are not part of this model. They hold storage, timers, metadata and build configuration.

## Findings

| source | as written | input that shows it | evidently intended | confidence | as-written member | corrected member |
|---|---|---|---|---|---|---|
| app/page.tsx:1120-1130 | The "next" button sets `Math.min(totalPages, prev + 1)` and "last" sets `totalPages`. Both are disabled only when `currentPage === totalPages`. | Filters that match no project (`totalPages` = 0), page 1, click "next" or "last": the page becomes 0. Page 0 shows `slice(-itemsPerPage, 0)`, which is empty. It stays 0 after the filters change, so matching projects stay hidden until the user navigates. | The page stays at least 1 and at most the displayed count `totalPages \|\| 1`. | not executed; high | `Pagination.NextPageAsWritten`, `Pagination.NextPageAsWrittenLeavesRange`, `Pagination.StepAsWrittenBreaksGood`, `Pagination.PageZeroShowsNothing` | `Pagination.NextPage`, `Pagination.LastPage`, `Pagination.Step`, `Pagination.StepPreservesGood` |

=== FILE: analytics.dfy ===
/** The analytics view over the filtered projects (app/analytics.tsx):
    summary metrics, the track / country / team-size distributions, the top
    projects by engagement and the list of active filters. Averages and
    percentages are kept as (numerator, denominator) pairs. */
module Analytics {
  import opened Common
  import opened Projects
  import opened Tally
  import opened Sorting
  import Filters
  import Digits

  // ---------------------------------------------------------------------------
  // Metrics

  /** A fraction `num / den` with a positive denominator. */
  datatype Ratio = Ratio(num: int, den: nat)

  lemma UnionBound<T>(a: set<T>, b: set<T>)
    ensures |a + b| <= |a| + |b|
  {
    assert |a + b| + |a * b| == |a| + |b|;
  }

  /** The ids of a team, without repetitions. */
  function IdsOf(ms: seq<TeamMember>): (r: set<int>)
    ensures |r| <= |ms|
    ensures forall id :: id in r <==> exists j :: 0 <= j < |ms| && ms[j].id == id
    decreases |ms|
  {
    if |ms| == 0 then {}
    else
      var rest := IdsOf(ms[1..]);
      UnionBound({ms[0].id}, rest);
      assert forall id :: id in rest ==> exists j :: 0 <= j < |ms| && ms[j].id == id by {
        forall id | id in rest ensures exists j :: 0 <= j < |ms| && ms[j].id == id {
          var j :| 0 <= j < |ms[1..]| && ms[1..][j].id == id;
          assert ms[j + 1].id == id;
        }
      }
      assert forall j :: 1 <= j < |ms| ==> ms[j].id in rest by {
        forall j | 1 <= j < |ms| ensures ms[j].id in rest {
          assert ms[1..][j - 1] == ms[j];
        }
      }
      {ms[0].id} + rest
  }

  /** `new Set(projects.flatMap(p => p.teamMembers.map(m => m.id)))`: the
      participants, counted once however many projects they are on. */
  function MemberIds(fs: seq<Project>): (r: set<int>)
    ensures |r| <= SumOf(fs, TeamSize)
    decreases |fs|
  {
    if |fs| == 0 then {}
    else
      var here := IdsOf(fs[0].teamMembers);
      var rest := MemberIds(fs[1..]);
      UnionBound(here, rest);
      here + rest
  }

  /** A participant is counted iff some filtered project has a member with that id. */
  lemma {:induction false} MemberIdsExact(fs: seq<Project>, id: int)
    ensures id in MemberIds(fs) <==>
            exists i, j :: 0 <= i < |fs| && 0 <= j < |fs[i].teamMembers| && fs[i].teamMembers[j].id == id
    decreases |fs|
  {
    if |fs| > 0 {
      MemberIdsExact(fs[1..], id);
      if id in MemberIds(fs[1..]) {
        var i, j :| 0 <= i < |fs[1..]| && 0 <= j < |fs[1..][i].teamMembers| && fs[1..][i].teamMembers[j].id == id;
        assert fs[i + 1].teamMembers[j].id == id;
      }
      if exists i, j :: 0 <= i < |fs| && 0 <= j < |fs[i].teamMembers| && fs[i].teamMembers[j].id == id {
        var i, j :| 0 <= i < |fs| && 0 <= j < |fs[i].teamMembers| && fs[i].teamMembers[j].id == id;
        if i > 0 {
          assert fs[1..][i - 1].teamMembers[j].id == id;
        }
      }
    }
  }

  /** `new Set(projects.map(p => p.country))` */
  function Countries(fs: seq<Project>): (r: set<string>)
    ensures |r| <= |fs|
    ensures forall c :: c in r <==> exists i :: 0 <= i < |fs| && fs[i].country == c
    decreases |fs|
  {
    if |fs| == 0 then {}
    else
      var rest := Countries(fs[1..]);
      UnionBound({fs[0].country}, rest);
      assert forall c :: c in rest ==> exists i :: 0 <= i < |fs| && fs[i].country == c by {
        forall c | c in rest ensures exists i :: 0 <= i < |fs| && fs[i].country == c {
          var i :| 0 <= i < |fs[1..]| && fs[1..][i].country == c;
          assert fs[i + 1].country == c;
        }
      }
      assert forall i :: 1 <= i < |fs| ==> fs[i].country in rest by {
        forall i | 1 <= i < |fs| ensures fs[i].country in rest {
          assert fs[1..][i - 1] == fs[i];
        }
      }
      {fs[0].country} + rest
  }

  /** The `metrics` memo. */
  datatype Metrics = Metrics(
    totalProjects: nat,
    totalParticipants: nat,
    avgTeamSize: Ratio,
    totalEngagement: int,
    completionRate: Ratio,
    countriesRepresented: nat
  )

  /** The number of projects with at least one truthy link. */
  function WithLinks(fs: seq<Project>): (r: nat)
    ensures r <= |fs|
  {
    |Filter(fs, HasLink)|
  }

  /** The metric cards; the averages are exact fractions, 0 over 1 when the
      filtered list is empty. `completionRate` is the percentage before the
      card's `toFixed(0)` rounding. */
  function ComputeMetrics(fs: seq<Project>): (m: Metrics)
    ensures m.totalProjects == |fs|
    ensures m.totalParticipants == |MemberIds(fs)| <= SumOf(fs, TeamSize)
    ensures m.countriesRepresented == |Countries(fs)| <= |fs|
    ensures m.totalEngagement == SumOf(fs, Engagement)
    ensures m.avgTeamSize.den > 0 && m.completionRate.den > 0
    ensures 0 <= m.completionRate.num <= 100 * m.completionRate.den
    ensures |fs| > 0 ==> m.avgTeamSize == Ratio(SumOf(fs, TeamSize), |fs|)
    ensures |fs| > 0 ==> m.completionRate == Ratio(100 * WithLinks(fs), |fs|)
    ensures |fs| == 0 ==> m == Metrics(0, 0, Ratio(0, 1), 0, Ratio(0, 1), 0)
  {
    Metrics(
      |fs|,
      |MemberIds(fs)|,
      if |fs| > 0 then Ratio(SumOf(fs, TeamSize), |fs|) else Ratio(0, 1),
      SumOf(fs, Engagement),
      if |fs| > 0 then Ratio(100 * WithLinks(fs), |fs|) else Ratio(0, 1),
      |Countries(fs)|
    )
  }

  /** Engagement totals add over concatenation and are never negative when the
      counters are not. */
  lemma EngagementTotals(a: seq<Project>, b: seq<Project>)
    requires forall i :: 0 <= i < |a| ==> a[i].likes >= 0 && a[i].comments >= 0
    ensures ComputeMetrics(a + b).totalEngagement == ComputeMetrics(a).totalEngagement + ComputeMetrics(b).totalEngagement
    ensures ComputeMetrics(a).totalEngagement >= 0
  {
    SumOfAppend(a, b, Engagement);
    SumOfNonNeg(a, Engagement);
  }

  /** The completion rate counts exactly the projects with a truthy link. */
  lemma WithLinksExact(fs: seq<Project>)
    ensures multiset(Filter(fs, HasLink)) == multiset(fs) - multiset(Filter(fs, (p: Project) => !HasLink(p)))
    ensures WithLinks(fs) == |fs| - |Filter(fs, (p: Project) => !HasLink(p))|
  {
    var yes := Filter(fs, HasLink);
    var no := Filter(fs, (p: Project) => !HasLink(p));
    FilterMultiset(fs, HasLink);
    FilterMultiset(fs, (p: Project) => !HasLink(p));
    assert multiset(yes) + multiset(no) == multiset(fs);
    assert |multiset(yes)| + |multiset(no)| == |multiset(fs)|;
  }

  // ---------------------------------------------------------------------------
  // Distributions

  /** One `(track, engagement)` item per track tag of the project. */
  function ProjectTrackItems(p: Project): (r: seq<(string, int)>)
    ensures Keys(r) == p.tracks
  {
    seq(|p.tracks|, i requires 0 <= i < |p.tracks| => (p.tracks[i], Engagement(p)))
  }

  /** The items visited by the nested `forEach` over projects and their tracks. */
  function TrackItems(fs: seq<Project>): seq<(string, int)>
    decreases |fs|
  {
    if |fs| == 0 then [] else ProjectTrackItems(fs[0]) + TrackItems(fs[1..])
  }

  /** All track tags of all projects, in visiting order. */
  function AllTags(fs: seq<Project>): seq<string>
    decreases |fs|
  {
    if |fs| == 0 then [] else fs[0].tracks + AllTags(fs[1..])
  }

  lemma {:induction false} TrackItemKeys(fs: seq<Project>)
    ensures Keys(TrackItems(fs)) == AllTags(fs)
    decreases |fs|
  {
    if |fs| > 0 {
      TrackItemKeys(fs[1..]);
      var a := ProjectTrackItems(fs[0]);
      var b := TrackItems(fs[1..]);
      assert Keys(a + b) == Keys(a) + Keys(b);
    }
  }

  /** One `(country, engagement)` item per project. */
  function CountryItems(fs: seq<Project>): (r: seq<(string, int)>)
    ensures |r| == |fs|
    ensures forall i :: 0 <= i < |fs| ==> r[i] == (fs[i].country, Engagement(fs[i]))
  {
    seq(|fs|, i requires 0 <= i < |fs| => (fs[i].country, Engagement(fs[i])))
  }

  /** The projects from country `c`. */
  function FromCountry(c: string): Project -> bool
  {
    (p: Project) => p.country == c
  }

  /** The projects with `n` team members. */
  function OfSize(n: int): Project -> bool
  {
    (p: Project) => TeamSize(p) == n
  }

  /** A country's tally input counts and sums exactly that country's projects:
      its count is their number and its total their engagement. */
  lemma {:induction false} CountryItemsCount(fs: seq<Project>, c: string)
    ensures CountOf(CountryItems(fs), c) == |Filter(fs, FromCountry(c))|
    ensures multiset(Keys(CountryItems(fs)))[c] == |Filter(fs, FromCountry(c))|
    ensures TotalOf(CountryItems(fs), c) == SumOf(Filter(fs, FromCountry(c)), Engagement)
    decreases |fs|
  {
    CountOfIsMultiplicity(CountryItems(fs), c);
    if |fs| > 0 {
      CountryItemsCount(fs[1..], c);
      assert CountryItems(fs)[1..] == CountryItems(fs[1..]);
    }
  }

  /** One `(team size, engagement)` item per project. */
  function SizeItems(fs: seq<Project>): (r: seq<(int, int)>)
    ensures |r| == |fs|
    ensures forall i :: 0 <= i < |fs| ==> r[i] == (TeamSize(fs[i]), Engagement(fs[i]))
  {
    seq(|fs|, i requires 0 <= i < |fs| => (TeamSize(fs[i]), Engagement(fs[i])))
  }

  /** A team size's tally input counts and sums exactly the projects of that size. */
  lemma {:induction false} SizeItemsCount(fs: seq<Project>, n: int)
    ensures CountOf(SizeItems(fs), n) == |Filter(fs, OfSize(n))|
    ensures multiset(Keys(SizeItems(fs)))[n] == |Filter(fs, OfSize(n))|
    ensures TotalOf(SizeItems(fs), n) == SumOf(Filter(fs, OfSize(n)), Engagement)
    decreases |fs|
  {
    CountOfIsMultiplicity(SizeItems(fs), n);
    if |fs| > 0 {
      SizeItemsCount(fs[1..], n);
      assert SizeItems(fs)[1..] == SizeItems(fs[1..]);
    }
  }

  /** Ascending order on sizes, as a descending order on the negated size. */
  function NegKey(s: Stat<int>): int
  {
    -s.key
  }

  /** `trackData`: per track, the number of tags, most frequent first. */
  function TrackData(fs: seq<Project>): seq<Stat<string>>
  {
    Ranked(TrackItems(fs), StatCount)
  }

  /** `countryData`: per country, the number of projects, most frequent first,
      at most ten rows. */
  function CountryData(fs: seq<Project>): seq<Stat<string>>
  {
    Take(Ranked(CountryItems(fs), StatCount), 10)
  }

  /** `teamSizeData`: per team size, the number of projects, by ascending size.
      `Object.entries` already lists integer keys in ascending order and the
      explicit sort keeps that order. */
  function TeamSizeData(fs: seq<Project>): seq<Stat<int>>
  {
    Ranked(SizeItems(fs), NegKey)
  }

  /** Each track occurs once with its number of tags, the tracks are exactly
      those carried by some project, the values add up to the number of tags,
      and they are non-increasing. */
  lemma TrackDataCorrect(fs: seq<Project>)
    ensures var r := TrackData(fs);
            && DistinctBy(r, StatKey)
            && (forall i :: 0 <= i < |r| ==> r[i].count == multiset(AllTags(fs))[r[i].key] > 0)
            && (forall t :: t in AllTags(fs) <==> exists i :: 0 <= i < |r| && r[i].key == t)
            && SumOf(r, StatCount) == |AllTags(fs)|
            && NonIncreasing(r, StatCount)
  {
    TrackItemKeys(fs);
    TrackDataRows(fs);
    RankedKeys(TrackItems(fs), StatCount);
    RankedCountSum(TrackItems(fs), StatCount);
  }

  /** The track rows: distinct tracks, each with its number of tags. */
  lemma TrackDataRows(fs: seq<Project>)
    ensures DistinctBy(TrackData(fs), StatKey)
    ensures forall i :: 0 <= i < |TrackData(fs)| ==>
              TrackData(fs)[i].count == multiset(AllTags(fs))[TrackData(fs)[i].key] > 0
  {
    TrackItemKeys(fs);
    RankedEntries(TrackItems(fs), StatCount);
  }

  /** Tracks with the same number of tags keep the order in which they were
      first met. */
  lemma TrackDataTies(fs: seq<Project>, n: int)
    ensures Filter(TrackData(fs), KeyEq(StatCount, n)) == Filter(Tally.Tally(TrackItems(fs)), KeyEq(StatCount, n))
  {
    SortDescStable(Tally.Tally(TrackItems(fs)), StatCount, n);
  }

  /** At most ten countries, each once, each with its number of projects,
      most frequent first; fewer than ten only when fewer countries occur. */
  lemma CountryDataCorrect(fs: seq<Project>)
    ensures var r := CountryData(fs);
            && |r| == (if |Countries(fs)| < 10 then |Countries(fs)| else 10)
            && DistinctBy(r, StatKey)
            && (forall i :: 0 <= i < |r| ==> r[i].count == multiset(Keys(CountryItems(fs)))[r[i].key] > 0)
            && NonIncreasing(r, StatCount)
  {
    var items := CountryItems(fs);
    var s := Ranked(items, StatCount);
    var r := CountryData(fs);
    RankedRows(fs);
    RankedEntries(items, StatCount);
    DistinctByPrefix(s, |r|, StatKey);
    NonIncreasingPrefix(s, |r|, StatCount);
  }

  /** No country left out of the chart has more projects than any country shown. */
  lemma CountryDataCutoff(fs: seq<Project>, c: string)
    requires c in Keys(CountryItems(fs))
    requires forall i :: 0 <= i < |CountryData(fs)| ==> CountryData(fs)[i].key != c
    ensures forall i :: 0 <= i < |CountryData(fs)| ==> multiset(Keys(CountryItems(fs)))[c] <= CountryData(fs)[i].count
  {
    var s := Ranked(CountryItems(fs), StatCount);
    var r := CountryData(fs);
    RankedEntries(CountryItems(fs), StatCount);
    RankedKeys(CountryItems(fs), StatCount);
    var k :| 0 <= k < |s| && s[k].key == c;
    forall i | 0 <= i < |r| ensures s[k].count <= r[i].count {
      assert r[i] == s[i];
    }
  }

  /** The country ranking has one row per distinct country. */
  lemma RankedRows(fs: seq<Project>)
    ensures |Ranked(CountryItems(fs), StatCount)| == |Countries(fs)|
  {
    var keys := Keys(CountryItems(fs));
    TallyRows(CountryItems(fs));
    assert (set k | k in keys) == Countries(fs) by {
      forall c | c in Countries(fs) ensures c in keys {
        var i :| 0 <= i < |fs| && fs[i].country == c;
        assert keys[i] == c;
      }
    }
  }

  /** Every project's size has a row holding its number of projects. */
  lemma TeamSizeDataCovers(fs: seq<Project>, i: nat)
    requires i < |fs|
    ensures exists j :: 0 <= j < |TeamSizeData(fs)| && TeamSizeData(fs)[j].key == TeamSize(fs[i])
              && TeamSizeData(fs)[j].count == multiset(Keys(SizeItems(fs)))[TeamSize(fs[i])]
  {
    var items := SizeItems(fs);
    RankedEntries(items, NegKey);
    RankedKeys(items, NegKey);
    assert Keys(items)[i] == TeamSize(fs[i]);
    assert Keys(items)[i] in Keys(items);
    var r := TeamSizeData(fs);
    var j :| 0 <= j < |r| && r[j].key == TeamSize(fs[i]);
    assert r[j].count == multiset(Keys(items))[r[j].key];
  }

  /** One instance of the ascending order of the sizes. */
  lemma TeamSizeDataBefore(fs: seq<Project>, a: nat, c: nat)
    requires a < c < |TeamSizeData(fs)|
    ensures TeamSizeData(fs)[a].key < TeamSizeData(fs)[c].key
  {
    TeamSizeDataAscending(fs);
  }

  /** The sizes are strictly ascending. */
  lemma TeamSizeDataAscending(fs: seq<Project>)
    ensures forall i, j :: 0 <= i < j < |TeamSizeData(fs)| ==> TeamSizeData(fs)[i].key < TeamSizeData(fs)[j].key
  {
    var r := TeamSizeData(fs);
    RankedEntries(SizeItems(fs), NegKey);
    forall i, j | 0 <= i < j < |r| ensures r[i].key < r[j].key {
      assert NegKey(r[i]) >= NegKey(r[j]);
    }
  }

  /** Sizes strictly ascending, each with its number of projects, every
      project's size present, and the counts add up to the number of projects. */
  lemma TeamSizeDataCorrect(fs: seq<Project>)
    ensures var r := TeamSizeData(fs);
            var sizes := Keys(SizeItems(fs));
            && (forall i, j :: 0 <= i < j < |r| ==> r[i].key < r[j].key)
            && (forall i :: 0 <= i < |r| ==> r[i].count == multiset(sizes)[r[i].key] > 0)
            && (forall i :: 0 <= i < |fs| ==> exists j :: 0 <= j < |r| && r[j].key == TeamSize(fs[i]))
            && SumOf(r, StatCount) == |fs|
  {
    var items := SizeItems(fs);
    var r := TeamSizeData(fs);
    TeamSizeDataAscending(fs);
    RankedEntries(items, NegKey);
    RankedCountSum(items, NegKey);
    forall i | 0 <= i < |fs| ensures exists j :: 0 <= j < |r| && r[j].key == TeamSize(fs[i]) {
      TeamSizeDataCovers(fs, i);
    }
  }

  // ---------------------------------------------------------------------------
  // Top projects

  /** `topProjects`: the ten projects with the highest likes + comments, ties
      in filtered order. */
  function TopProjects(fs: seq<Project>): seq<Project>
  {
    Take(SortDesc(fs, Engagement), 10)
  }

  /** Exactly `min(10, |fs|)` projects, all drawn from the filtered list,
      non-increasing in engagement; all of them when there are at most ten; and every project
      left out has no more engagement than the last one shown. */
  lemma TopProjectsCorrect(fs: seq<Project>)
    ensures var r := TopProjects(fs);
            && |r| <= 10
            && |r| == (if |fs| <= 10 then |fs| else 10)
            && multiset(r) <= multiset(fs)
            && NonIncreasing(r, Engagement)
            && (|fs| <= 10 ==> multiset(r) == multiset(fs))
            && (|fs| > 0 ==> |r| > 0)
            && forall p :: p in multiset(fs) - multiset(r) ==> Engagement(p) <= Engagement(r[|r| - 1])
  {
    var s := SortDesc(fs, Engagement);
    var r := TopProjects(fs);
    TakeRest(s, 10);
    NonIncreasingPrefix(s, |r|, Engagement);
    forall p | p in multiset(fs) - multiset(r) ensures Engagement(p) <= Engagement(r[|r| - 1]) {
      TopProjectsCutoff(s, |r|, p);
    }
  }

  /** In a list sorted by engagement, an element past the cut-off position has
      no more engagement than the element just before it. */
  lemma TopProjectsCutoff(s: seq<Project>, n: nat, p: Project)
    requires 0 < n <= |s| && NonIncreasing(s, Engagement)
    requires p in multiset(s[n..])
    ensures Engagement(p) <= Engagement(s[n - 1])
  {
    var k :| 0 <= k < |s[n..]| && s[n..][k] == p;
    assert s[n + k] == p;
  }

  // ---------------------------------------------------------------------------
  // Active filters

  /** The team-size range counts as a filter when it is narrower than [1, 10]. */
  predicate TeamSizeNarrowed(spec: Filters.FilterSpec)
  {
    spec.teamSizeMin > 1 || spec.teamSizeMax < 10
  }

  /** `activeFiltersList`: the selected tracks, the selected countries, then one
      label each for a narrowed team-size range, university only, a link mode
      and a search term. The likes range is not listed. */
  function ActiveFiltersList(spec: Filters.FilterSpec): (r: seq<string>)
    ensures |r| == |spec.tracks| + |spec.countries|
                   + (if TeamSizeNarrowed(spec) then 1 else 0)
                   + (if spec.universityOnly then 1 else 0)
                   + (if spec.links != Filters.All then 1 else 0)
                   + (if |spec.searchTerm| > 0 then 1 else 0)
    ensures r[..|spec.tracks|] == spec.tracks
    ensures r[|spec.tracks|..|spec.tracks| + |spec.countries|] == spec.countries
  {
    var teamSize := if TeamSizeNarrowed(spec)
      then [Digits.IntToString(spec.teamSizeMin) + "-" + Digits.IntToString(spec.teamSizeMax) + " members"] else [];
    var university := if spec.universityOnly then ["University projects"] else [];
    var links := match spec.links
      case All => []
      case WithLinks => ["Has links"]
      case WithoutLinks => ["No links"];
    var search := if |spec.searchTerm| > 0 then ["\"" + spec.searchTerm + "\""] else [];
    var rest := teamSize + university + links + search;
    var tail := spec.countries + rest;
    assert tail[..|spec.countries|] == spec.countries;
    var r := spec.tracks + tail;
    assert r[..|spec.tracks|] == spec.tracks;
    assert r[|spec.tracks|..] == tail;
    assert r[|spec.tracks|..|spec.tracks| + |spec.countries|] == tail[..|spec.countries|];
    r
  }

  /** The "Key Insights" card is shown when some filter is listed and the
      filtered list is not empty. */
  predicate InsightsShown(spec: Filters.FilterSpec, fs: seq<Project>)
  {
    |ActiveFiltersList(spec)| > 0 && |fs| > 0
  }

  /** Which filters make the insights appear: every listed criterion, but not
      the likes range. */
  lemma InsightsShownExactly(spec: Filters.FilterSpec, fs: seq<Project>)
    ensures InsightsShown(spec, fs) <==>
            |fs| > 0 && (|spec.tracks| > 0 || |spec.countries| > 0 || TeamSizeNarrowed(spec)
                         || spec.universityOnly || spec.links != Filters.All || |spec.searchTerm| > 0)
  {
  }

  /** A likes range on its own never shows the insights card. */
  lemma LikesRangeAloneHidesInsights(fs: seq<Project>, lo: int, hi: int)
    ensures ActiveFiltersList(Filters.InitialSpec.(likesMin := lo, likesMax := hi)) == []
  {
  }

  /** After loading projects whose largest team has fewer than ten members,
      the slider range [1, largest] is listed as a filter although the user set
      none. */
  lemma LoadedSpecListsTeamSize(fetched: seq<Project>)
    requires |fetched| > 0
    requires forall i :: 0 <= i < |fetched| ==> TeamSize(fetched[i]) < 10
    ensures |ActiveFiltersList(Filters.LoadedSpec(Filters.InitialSpec, fetched))| == 1
  {
    var spec := Filters.LoadedSpec(Filters.InitialSpec, fetched);
    var i :| 0 <= i < |fetched| && TeamSize(fetched[i]) == spec.teamSizeMax;
    assert TeamSizeNarrowed(spec);
  }
}

=== FILE: common.dfy ===
/** Small sequence vocabulary shared by the whole model: an Option type for
    JavaScript's `undefined`/`null` results, an order-preserving filter
    (`Array.prototype.filter`), a subsequence relation, a clamped prefix
    (`slice(0, n)`) and integer sums (`reduce((sum, x) => sum + f(x), 0)`). */
module Common {

  datatype Option<+T> = None | Some(value: T)

  /** `s.filter(p)`: keeps, in order, the elements satisfying `p`. */
  function Filter<T>(s: seq<T>, p: T -> bool): (r: seq<T>)
    ensures |r| <= |s|
    ensures forall i :: 0 <= i < |r| ==> p(r[i])
    decreases |s|
  {
    if |s| == 0 then []
    else if p(s[0]) then [s[0]] + Filter(s[1..], p)
    else Filter(s[1..], p)
  }

  /** `a` is obtained from `b` by deleting zero or more elements. */
  predicate Subseq<T(==)>(a: seq<T>, b: seq<T>)
    decreases |b|
  {
    if |a| == 0 then true
    else if |b| == 0 then false
    else if a[0] == b[0] then Subseq(a[1..], b[1..])
    else Subseq(a, b[1..])
  }

  lemma {:induction false} FilterIsSubseq<T>(s: seq<T>, p: T -> bool)
    ensures Subseq(Filter(s, p), s)
    decreases |s|
  {
    if |s| > 0 {
      FilterIsSubseq(s[1..], p);
      var rest := Filter(s[1..], p);
      if p(s[0]) {
        assert Filter(s, p) == [s[0]] + rest;
        assert ([s[0]] + rest)[1..] == rest;
      } else {
        SubseqDropFirst(rest, s);
      }
    }
  }

  /** Helper: a subsequence of `b[1..]` is a subsequence of `b`. */
  lemma {:induction false} SubseqDropFirst<T>(a: seq<T>, b: seq<T>)
    requires |b| > 0 && Subseq(a, b[1..])
    ensures Subseq(a, b)
    decreases |a| + |b|
  {
    if |a| > 0 && a[0] == b[0] {
      SubseqTail(a, b[1..]);
    }
  }

  /** Helper: dropping the head of a subsequence keeps it a subsequence. */
  lemma {:induction false} SubseqTail<T>(a: seq<T>, b: seq<T>)
    requires |a| > 0 && Subseq(a, b)
    ensures Subseq(a[1..], b)
    decreases |a| + |b|
  {
    if a[0] == b[0] {
      if |b[1..]| > 0 {
        SubseqDropFirst(a[1..], b);
      }
    } else {
      SubseqTail(a, b[1..]);
      SubseqDropFirst(a[1..], b);
    }
  }

  /** The filter keeps exactly the occurrences of the satisfying elements:
      no element meeting `p` is dropped, no other element survives. */
  lemma {:induction false} FilterMultiset<T>(s: seq<T>, p: T -> bool)
    ensures forall x :: multiset(Filter(s, p))[x] == if p(x) then multiset(s)[x] else 0
    decreases |s|
  {
    if |s| > 0 {
      FilterMultiset(s[1..], p);
      assert s == [s[0]] + s[1..];
      assert multiset(s) == multiset{s[0]} + multiset(s[1..]);
    }
  }

  lemma {:induction false} FilterIdempotent<T>(s: seq<T>, p: T -> bool)
    ensures Filter(Filter(s, p), p) == Filter(s, p)
    decreases |s|
  {
    if |s| > 0 {
      FilterIdempotent(s[1..], p);
      if p(s[0]) {
        assert ([s[0]] + Filter(s[1..], p))[1..] == Filter(s[1..], p);
      }
    }
  }

  /** Filtering a sequence whose elements all satisfy `p` returns it unchanged. */
  lemma {:induction false} FilterAllPass<T>(s: seq<T>, p: T -> bool)
    requires forall i :: 0 <= i < |s| ==> p(s[i])
    ensures Filter(s, p) == s
    decreases |s|
  {
    if |s| > 0 {
      FilterAllPass(s[1..], p);
      assert [s[0]] + s[1..] == s;
    }
  }

  lemma {:induction false} FilterAppend<T>(a: seq<T>, b: seq<T>, p: T -> bool)
    ensures Filter(a + b, p) == Filter(a, p) + Filter(b, p)
    decreases |a|
  {
    if |a| == 0 {
      assert a + b == b;
    } else {
      FilterAppend(a[1..], b, p);
      assert (a + b)[1..] == a[1..] + b;
    }
  }

  /** The first element kept by a filter is the first element that passes it:
      it sits at position `m`, no later than any passing position `j`. */
  lemma {:induction false} FilterFirst<T>(s: seq<T>, p: T -> bool, j: nat) returns (m: nat)
    requires j < |s| && p(s[j])
    ensures |Filter(s, p)| > 0
    ensures m <= j && Filter(s, p)[0] == s[m] && forall i :: 0 <= i < m ==> !p(s[i])
    decreases |s|
  {
    if !p(s[0]) {
      var m' := FilterFirst(s[1..], p, j - 1);
      m := m' + 1;
      assert Filter(s, p)[0] == s[m];
      forall i | 0 <= i < m ensures !p(s[i]) {
        if i > 0 {
          assert s[i] == s[1..][i - 1];
        }
      }
    } else {
      m := 0;
      FilterHead(s, p);
    }
  }

  /** A filter keeps a passing first element in front. */
  lemma FilterHead<T>(s: seq<T>, p: T -> bool)
    requires |s| > 0 && p(s[0])
    ensures Filter(s, p)[0] == s[0]
  {
  }

  /** `s.slice(0, n)` for `n >= 0`. */
  function Take<T>(s: seq<T>, n: nat): (r: seq<T>)
    ensures |r| <= n && |r| <= |s|
    ensures |s| <= n ==> r == s
    ensures n <= |s| ==> |r| == n
    ensures r == s[..|r|]
  {
    if |s| <= n then s else s[..n]
  }

  /** What `Take` leaves out is the rest of the list. */
  lemma TakeRest<T>(s: seq<T>, n: nat)
    ensures multiset(Take(s, n)) <= multiset(s)
    ensures multiset(s) - multiset(Take(s, n)) == multiset(s[|Take(s, n)|..])
  {
    var r := Take(s, n);
    assert s == r + s[|r|..];
    assert multiset(s) == multiset(r) + multiset(s[|r|..]);
  }

  /** `s.reduce((sum, x) => sum + f(x), 0)`. */
  function SumOf<T>(s: seq<T>, f: T -> int): int
    decreases |s|
  {
    if |s| == 0 then 0 else f(s[0]) + SumOf(s[1..], f)
  }

  lemma {:induction false} SumOfAppend<T>(a: seq<T>, b: seq<T>, f: T -> int)
    ensures SumOf(a + b, f) == SumOf(a, f) + SumOf(b, f)
    decreases |a|
  {
    if |a| == 0 {
      assert a + b == b;
    } else {
      SumOfAppend(a[1..], b, f);
      assert (a + b)[1..] == a[1..] + b;
    }
  }

  lemma {:induction false} SumOfNonNeg<T>(s: seq<T>, f: T -> int)
    requires forall i :: 0 <= i < |s| ==> f(s[i]) >= 0
    ensures SumOf(s, f) >= 0
    decreases |s|
  {
    if |s| > 0 {
      SumOfNonNeg(s[1..], f);
    }
  }

  /** Flattening: `parts.flat()` for a sequence of sequences. */
  function Flatten<T>(parts: seq<seq<T>>): (r: seq<T>)
    decreases |parts|
  {
    if |parts| == 0 then [] else parts[0] + Flatten(parts[1..])
  }

  lemma {:induction false} FlattenAppend<T>(a: seq<seq<T>>, b: seq<seq<T>>)
    ensures Flatten(a + b) == Flatten(a) + Flatten(b)
    decreases |a|
  {
    if |a| == 0 {
      assert a + b == b;
    } else {
      FlattenAppend(a[1..], b);
      assert (a + b)[1..] == a[1..] + b;
    }
  }
}

=== FILE: digits.dfy ===
/** Decimal text for the page-number box: `Number.prototype.toString` on
    non-negative integers, the `/^\d*$/` test, and `parseInt` on strings that
    pass that test. */
module Digits {
  import opened Common

  predicate IsDigit(c: char)
  {
    '0' <= c <= '9'
  }

  /** `/^\d*$/.test(s)`: every character is a decimal digit (the empty string passes). */
  predicate AllDigits(s: string)
  {
    forall i :: 0 <= i < |s| ==> IsDigit(s[i])
  }

  function DigitChar(d: nat): (c: char)
    requires d < 10
    ensures IsDigit(c)
  {
    ('0' as int + d) as char
  }

  function DigitValue(c: char): (d: nat)
    requires IsDigit(c)
    ensures d < 10
  {
    (c as int - '0' as int) as nat
  }

  /** `n.toString()` */
  function NatToString(n: nat): (s: string)
    ensures |s| > 0 && AllDigits(s)
    decreases n
  {
    if n < 10 then [DigitChar(n)] else NatToString(n / 10) + [DigitChar(n % 10)]
  }

  /** `i.toString()` for any integer. */
  function IntToString(i: int): string
  {
    if i < 0 then "-" + NatToString(-i) else NatToString(i)
  }

  /** The value of a digit string read most-significant digit first. */
  function DigitsValue(s: string): nat
    requires AllDigits(s)
    decreases |s|
  {
    if |s| == 0 then 0 else 10 * DigitsValue(s[..|s| - 1]) + DigitValue(s[|s| - 1])
  }

  /** `parseInt(s)` for a string that passed `/^\d*$/`: NaN (here `None`) for
      the empty string, the decimal value otherwise (leading zeros allowed). */
  function ParseDigits(s: string): (r: Option<nat>)
    ensures r.Some? <==> |s| > 0 && AllDigits(s)
  {
    if |s| > 0 && AllDigits(s) then Some(DigitsValue(s)) else None
  }

  lemma {:induction false} DigitsValueOfNatToString(n: nat)
    ensures DigitsValue(NatToString(n)) == n
    decreases n
  {
    if n >= 10 {
      DigitsValueOfNatToString(n / 10);
      var s := NatToString(n);
      assert s[..|s| - 1] == NatToString(n / 10);
    }
  }

  /** Round trip: parsing a printed page number gives the number back. */
  lemma ParseNatToString(n: nat)
    ensures ParseDigits(NatToString(n)) == Some(n)
  {
    DigitsValueOfNatToString(n);
  }
}

=== FILE: filters.dfy ===
/** The table view's filter predicate and sort (app/page.tsx,
    `filteredAndSortedProjects`), the filter state it reads, and the three
    ways the ranges are set: the initial state, the post-fetch update and
    "Clear All Filters". */
module Filters {
  import opened Common
  import opened Projects
  import Sorting

  /** The `hasLinks` select: "all", "with-links" or "without-links". */
  datatype LinkMode = All | WithLinks | WithoutLinks

  /** The filter state: search box, selected tracks and countries, the two
      slider ranges (inclusive), the university checkbox and the links select. */
  datatype FilterSpec = FilterSpec(
    searchTerm: string,
    tracks: seq<string>,
    countries: seq<string>,
    teamSizeMin: int,
    teamSizeMax: int,
    likesMin: int,
    likesMax: int,
    universityOnly: bool,
    links: LinkMode
  )

  /** `sortBy`: "random", "likes" or "name". */
  datatype SortMode = Random | Likes | Name

  // ---------------------------------------------------------------------------
  // Search: case-insensitive substring test

  /** `toLowerCase` on the ASCII letters. */
  function LowerChar(c: char): char
  {
    if 'A' <= c <= 'Z' then (c as int + 32) as char else c
  }

  function ToLower(s: string): (r: string)
    ensures |r| == |s|
    ensures forall i :: 0 <= i < |s| ==> r[i] == LowerChar(s[i])
    ensures forall i :: 0 <= i < |r| ==> !('A' <= r[i] <= 'Z')
    ensures forall i :: 0 <= i < |s| && !('A' <= s[i] <= 'Z') ==> r[i] == s[i]
  {
    seq(|s|, i requires 0 <= i < |s| => LowerChar(s[i]))
  }

  /** Lower-casing is idempotent, so a term already in lower case searches the
      same way as its original. */
  lemma ToLowerIdempotent(s: string)
    ensures ToLower(ToLower(s)) == ToLower(s)
  {
    var t := ToLower(s);
    assert forall i :: 0 <= i < |t| ==> ToLower(t)[i] == t[i];
  }

  /** Two texts that differ only in the case of A-Z letters lower-case to the
      same string. */
  lemma ToLowerCaseBlind(s: string, t: string)
    requires |s| == |t|
    requires forall i :: 0 <= i < |s| ==> s[i] == t[i] || LowerChar(s[i]) == t[i] || s[i] == LowerChar(t[i])
    ensures ToLower(s) == ToLower(t)
  {
    assert forall i :: 0 <= i < |s| ==> ToLower(s)[i] == ToLower(t)[i];
  }

  /** `s.includes(t)`: `t` occurs in `s` as a contiguous block. */
  predicate Includes(s: string, t: string)
    decreases |s|
  {
    (|t| <= |s| && s[..|t|] == t) || (|s| > 0 && Includes(s[1..], t))
  }

  /** `t` occurs in `s` starting at offset `i`. */
  predicate OccursAt(s: string, t: string, i: int)
  {
    0 <= i && i + |t| <= |s| && s[i..i + |t|] == t
  }

  /** `Includes` holds exactly when `t` occurs at some offset of `s`. */
  lemma {:induction false} IncludesAtOffset(s: string, t: string)
    ensures Includes(s, t) <==> exists i :: OccursAt(s, t, i)
    decreases |s|
  {
    if |s| > 0 {
      IncludesAtOffset(s[1..], t);
      if exists i :: OccursAt(s, t, i) {
        var i :| OccursAt(s, t, i);
        if i > 0 {
          assert OccursAt(s[1..], t, i - 1);
        }
      }
      if exists i :: OccursAt(s[1..], t, i) {
        var i :| OccursAt(s[1..], t, i);
        assert s[i + 1..i + 1 + |t|] == s[1..][i..i + |t|];
        assert OccursAt(s, t, i + 1);
      }
      if |t| <= |s| && s[..|t|] == t {
        assert OccursAt(s, t, 0);
      }
    } else if |t| == 0 {
      assert OccursAt(s, t, 0);
    }
  }

  /** The empty search term is included in every string. */
  lemma IncludesEmpty(s: string)
    ensures Includes(s, "")
  {
    assert s[..0] == "";
  }

  // ---------------------------------------------------------------------------
  // The seven criteria

  predicate MatchesSearch(p: Project, term: string)
  {
    Includes(ToLower(p.name), ToLower(term)) || Includes(ToLower(p.description), ToLower(term))
  }

  /** An empty selection imposes no restriction; otherwise some track of the
      project must be selected. */
  predicate MatchesTrack(p: Project, selected: seq<string>)
  {
    |selected| == 0 || exists i :: 0 <= i < |p.tracks| && p.tracks[i] in selected
  }

  predicate MatchesCountry(p: Project, selected: seq<string>)
  {
    |selected| == 0 || p.country in selected
  }

  predicate MatchesLinks(p: Project, mode: LinkMode)
  {
    match mode
    case All => true
    case WithLinks => HasLink(p)
    case WithoutLinks => !HasLink(p)
  }

  /** The filter callback of `filteredAndSortedProjects`. */
  predicate Matches(p: Project, spec: FilterSpec)
  {
    && MatchesSearch(p, spec.searchTerm)
    && MatchesTrack(p, spec.tracks)
    && MatchesCountry(p, spec.countries)
    && spec.teamSizeMin <= TeamSize(p) <= spec.teamSizeMax
    && spec.likesMin <= p.likes <= spec.likesMax
    && (!spec.universityOnly || p.isUniversityProject)
    && MatchesLinks(p, spec.links)
  }

  function MatchesFn(spec: FilterSpec): Project -> bool
  {
    (p: Project) => Matches(p, spec)
  }

  /** `sourceProjects.filter(...)` */
  function FilterAll(ps: seq<Project>, spec: FilterSpec): (r: seq<Project>)
    ensures |r| <= |ps|
    ensures forall i :: 0 <= i < |r| ==> Matches(r[i], spec)
  {
    Filter(ps, MatchesFn(spec))
  }

  /** The filtered list is an order-preserving subsequence of the source, and
      it keeps every matching occurrence and nothing else. */
  lemma FilterAllExact(ps: seq<Project>, spec: FilterSpec)
    ensures Subseq(FilterAll(ps, spec), ps)
    ensures forall p :: multiset(FilterAll(ps, spec))[p] == if Matches(p, spec) then multiset(ps)[p] else 0
  {
    FilterIsSubseq(ps, MatchesFn(spec));
    FilterMultiset(ps, MatchesFn(spec));
  }

  lemma FilterAllIdempotent(ps: seq<Project>, spec: FilterSpec)
    ensures FilterAll(FilterAll(ps, spec), spec) == FilterAll(ps, spec)
  {
    FilterIdempotent(ps, MatchesFn(spec));
  }

  /** "with-links" and "without-links" are complements: every project meets
      exactly one of them. */
  lemma LinkModesComplement(p: Project)
    ensures MatchesLinks(p, WithLinks) != MatchesLinks(p, WithoutLinks)
    ensures MatchesLinks(p, All)
  {
  }

  /** So the two link filters split the "all" result between them. */
  lemma {:induction false} LinkModesPartition(ps: seq<Project>, spec: FilterSpec)
    ensures |FilterAll(ps, spec.(links := WithLinks))| + |FilterAll(ps, spec.(links := WithoutLinks))|
         == |FilterAll(ps, spec.(links := All))|
    decreases |ps|
  {
    if |ps| > 0 {
      LinkModesPartition(ps[1..], spec);
    }
  }

  /** An empty track or country selection is no restriction. */
  lemma EmptySelectionsMatch(p: Project, spec: FilterSpec)
    requires |spec.tracks| == 0 && |spec.countries| == 0
    ensures MatchesTrack(p, spec.tracks) && MatchesCountry(p, spec.countries)
  {
  }

  /** A spec without search term, selections, university or link restriction,
      whose ranges contain the project's values, matches the project. */
  lemma NeutralSpecMatches(p: Project, spec: FilterSpec)
    requires spec.searchTerm == "" && |spec.tracks| == 0 && |spec.countries| == 0
    requires spec.teamSizeMin <= TeamSize(p) <= spec.teamSizeMax
    requires spec.likesMin <= p.likes <= spec.likesMax
    requires !spec.universityOnly && spec.links == All
    ensures Matches(p, spec)
  {
    IncludesEmpty(ToLower(p.name));
    assert ToLower("") == "";
  }

  // ---------------------------------------------------------------------------
  // Range defaults

  /** `Math.max(...s, floor)` */
  function MaxOf(s: seq<int>, floor: int): (r: int)
    ensures r >= floor
    ensures forall i :: 0 <= i < |s| ==> s[i] <= r
    ensures r == floor || exists i :: 0 <= i < |s| && s[i] == r
    decreases |s|
  {
    if |s| == 0 then floor
    else
      var m := MaxOf(s[1..], floor);
      if s[0] >= m then s[0] else m
  }

  function TeamSizes(ps: seq<Project>): (r: seq<int>)
    ensures |r| == |ps| && forall i :: 0 <= i < |ps| ==> r[i] == TeamSize(ps[i])
  {
    seq(|ps|, i requires 0 <= i < |ps| => TeamSize(ps[i]))
  }

  function LikesOf(ps: seq<Project>): (r: seq<int>)
    ensures |r| == |ps| && forall i :: 0 <= i < |ps| ==> r[i] == ps[i].likes
  {
    seq(|ps|, i requires 0 <= i < |ps| => ps[i].likes)
  }

  /** The state before any data: sliders at [1, 10] and [0, 100]. */
  const InitialSpec: FilterSpec := FilterSpec("", [], [], 1, 10, 0, 100, false, All)

  /** After a successful fetch with projects, the sliders span [1, largest team]
      and [0, most likes]; with no projects they stay as they were. */
  function LoadedSpec(spec: FilterSpec, fetched: seq<Project>): (r: FilterSpec)
    ensures |fetched| == 0 ==> r == spec
    ensures |fetched| > 0 ==> r.teamSizeMin == 1 && r.likesMin == 0
    ensures |fetched| > 0 ==> exists i :: 0 <= i < |fetched| && TeamSize(fetched[i]) == r.teamSizeMax
    ensures |fetched| > 0 ==> exists i :: 0 <= i < |fetched| && fetched[i].likes == r.likesMax
    ensures |fetched| > 0 ==> forall i :: 0 <= i < |fetched| ==>
              TeamSize(fetched[i]) <= r.teamSizeMax && fetched[i].likes <= r.likesMax
    ensures r.(teamSizeMin := spec.teamSizeMin, teamSizeMax := spec.teamSizeMax,
               likesMin := spec.likesMin, likesMax := spec.likesMax) == spec
  {
    if |fetched| == 0 then spec
    else
      var sizes := TeamSizes(fetched);
      var likes := LikesOf(fetched);
      // the largest value of a non-empty list, as `Math.max(...list)`
      spec.(teamSizeMin := 1, teamSizeMax := MaxOf(sizes[1..], sizes[0]),
            likesMin := 0, likesMax := MaxOf(likes[1..], likes[0]))
  }

  /** "Clear All Filters": selections, university and links reset, sliders
      spanning [1, max(largest team, 10)] and [0, max(most likes, 100)]. The
      search term is not touched. */
  function ClearedSpec(spec: FilterSpec, ps: seq<Project>): (r: FilterSpec)
    ensures r.searchTerm == spec.searchTerm
    ensures r.tracks == [] && r.countries == [] && !r.universityOnly && r.links == All
    ensures r.teamSizeMin == 1 && r.likesMin == 0
    ensures forall i :: 0 <= i < |ps| ==> TeamSize(ps[i]) <= r.teamSizeMax && ps[i].likes <= r.likesMax
    ensures r.teamSizeMax >= 10 && r.likesMax >= 100
    ensures r.teamSizeMax == 10 || exists i :: 0 <= i < |ps| && TeamSize(ps[i]) == r.teamSizeMax
    ensures r.likesMax == 100 || exists i :: 0 <= i < |ps| && ps[i].likes == r.likesMax
  {
    FilterSpec(spec.searchTerm, [], [], 1, MaxOf(TeamSizes(ps), 10), 0, MaxOf(LikesOf(ps), 100), false, All)
  }

  /** With an empty search box, the cleared filters let every project with at
      least one member and non-negative likes through. */
  lemma ClearedSpecMatchesAll(spec: FilterSpec, ps: seq<Project>)
    requires spec.searchTerm == ""
    requires forall i :: 0 <= i < |ps| ==> TeamSize(ps[i]) >= 1 && ps[i].likes >= 0
    ensures FilterAll(ps, ClearedSpec(spec, ps)) == ps
  {
    var c := ClearedSpec(spec, ps);
    forall i | 0 <= i < |ps| ensures MatchesFn(c)(ps[i]) {
      NeutralSpecMatches(ps[i], c);
    }
    FilterAllPass(ps, MatchesFn(c));
  }

  // ---------------------------------------------------------------------------
  // Sorting

  function LikesKey(p: Project): int
  {
    p.likes
  }

  /** `localeCompare` is abstracted as comparing a collation key; ascending by
      key is descending by its negation. */
  function NameKey(collate: string -> int): Project -> int
  {
    (p: Project) => -collate(p.name)
  }

  /** `filteredAndSortedProjects`: random mode filters the shuffled list and
      keeps its order; the other modes filter the normalised list and sort it. */
  function FilteredAndSorted(mapped: seq<Project>, shuffled: seq<Project>, spec: FilterSpec,
                             mode: SortMode, collate: string -> int): (r: seq<Project>)
    ensures forall i :: 0 <= i < |r| ==> Matches(r[i], spec)
    ensures mode == Random ==> r == FilterAll(shuffled, spec)
    ensures mode != Random ==> multiset(r) == multiset(FilterAll(mapped, spec))
    ensures mode == Likes ==> Sorting.NonIncreasing(r, LikesKey)
    ensures mode == Name ==> Sorting.NonIncreasing(r, NameKey(collate))
  {
    if mode == Random then FilterAll(shuffled, spec)
    else
      var f := FilterAll(mapped, spec);
      var key := if mode == Likes then LikesKey else NameKey(collate);
      var r := Sorting.SortDesc(f, key);
      SortedStillMatch(f, key, spec);
      r
  }

  lemma SortedStillMatch(f: seq<Project>, key: Project -> int, spec: FilterSpec)
    requires forall i :: 0 <= i < |f| ==> Matches(f[i], spec)
    ensures forall i :: 0 <= i < |Sorting.SortDesc(f, key)| ==> Matches(Sorting.SortDesc(f, key)[i], spec)
  {
    var r := Sorting.SortDesc(f, key);
    forall i | 0 <= i < |r| ensures Matches(r[i], spec) {
      assert r[i] in multiset(r);
      assert r[i] in multiset(f);
      var j :| 0 <= j < |f| && f[j] == r[i];
    }
  }

  /** Sorting by name is ascending in the collation key. */
  lemma NameSortAscending(mapped: seq<Project>, shuffled: seq<Project>, spec: FilterSpec, collate: string -> int)
    ensures var r := FilteredAndSorted(mapped, shuffled, spec, Name, collate);
            forall i, j :: 0 <= i < j < |r| ==> collate(r[i].name) <= collate(r[j].name)
  {
    var r := FilteredAndSorted(mapped, shuffled, spec, Name, collate);
    forall i, j | 0 <= i < j < |r| ensures collate(r[i].name) <= collate(r[j].name) {
      assert NameKey(collate)(r[i]) >= NameKey(collate)(r[j]);
    }
  }

  /** In the sorted modes, the sort neither loses nor invents projects: it
      holds exactly the matching occurrences of the normalised list. */
  lemma SortedModesExact(mapped: seq<Project>, shuffled: seq<Project>, spec: FilterSpec,
                         mode: SortMode, collate: string -> int)
    requires mode != Random
    ensures forall p :: multiset(FilteredAndSorted(mapped, shuffled, spec, mode, collate))[p]
                     == if Matches(p, spec) then multiset(mapped)[p] else 0
  {
    FilterAllExact(mapped, spec);
  }
}

=== FILE: hackathons.dfy ===
/** The hackathon registry (lib/hackathons.ts): a constant table and
    first-match lookups over it. The lookups take the table as a parameter so
    that their contracts hold for any table; the facts about the actual table
    are lemmas at the end. */
module Hackathons {
  import opened Common

  datatype Hackathon = Hackathon(
    id: int,
    slug: string,
    name: string,
    emoji: string,
    description: Option<string>,
    isDefault: bool
  )

  const Latest: string := "The latest Colosseum hackathon"

  const Table: seq<Hackathon> := [
    Hackathon(5, "cypherpunk", "Cypherpunk", "\U{1F510}", Some(Latest), true),
    Hackathon(4, "breakout", "Breakout", "\U{1F4A5}", Some("The Colosseum Breakout Hackathon"), false),
    Hackathon(3, "radar", "Radar", "\U{1F4E1}", Some(Latest), false),
    Hackathon(2, "renaissance", "Renaissance", "\U{1F3A8}", Some(Latest), false)
  ]

  /** `table.find(p)`: the first entry satisfying `p`, if any. */
  function Find(table: seq<Hackathon>, p: Hackathon -> bool): (r: Option<Hackathon>)
    ensures r.None? <==> forall i :: 0 <= i < |table| ==> !p(table[i])
    ensures r.Some? ==> exists i :: 0 <= i < |table| && table[i] == r.value
                          && p(r.value) && forall j :: 0 <= j < i ==> !p(table[j])
    decreases |table|
  {
    if |table| == 0 then None
    else if p(table[0]) then Some(table[0])
    else
      var r := Find(table[1..], p);
      assert forall i :: 1 <= i < |table| ==> table[i] == table[1..][i - 1];
      r
  }

  function SlugIs(slug: string): Hackathon -> bool
  {
    (h: Hackathon) => h.slug == slug
  }

  function IdIs(id: int): Hackathon -> bool
  {
    (h: Hackathon) => h.id == id
  }

  function IsDefault(h: Hackathon): bool
  {
    h.isDefault
  }

  /** `getHackathonBySlug` */
  function BySlug(table: seq<Hackathon>, slug: string): (r: Option<Hackathon>)
    ensures r.None? <==> forall i :: 0 <= i < |table| ==> table[i].slug != slug
    ensures r.Some? ==> exists i :: 0 <= i < |table| && table[i] == r.value && r.value.slug == slug
                          && forall j :: 0 <= j < i ==> table[j].slug != slug
  {
    Find(table, SlugIs(slug))
  }

  /** `getHackathonById` */
  function ById(table: seq<Hackathon>, id: int): (r: Option<Hackathon>)
    ensures r.None? <==> forall i :: 0 <= i < |table| ==> table[i].id != id
    ensures r.Some? ==> exists i :: 0 <= i < |table| && table[i] == r.value && r.value.id == id
                          && forall j :: 0 <= j < i ==> table[j].id != id
  {
    Find(table, IdIs(id))
  }

  /** `getDefaultHackathon`: the first default entry, else the first entry
      (`None` for an empty table, where JavaScript yields undefined). */
  function Default(table: seq<Hackathon>): (r: Option<Hackathon>)
    ensures r.None? <==> |table| == 0
    ensures (exists i :: 0 <= i < |table| && table[i].isDefault) ==>
              r.Some? && r.value.isDefault && exists i :: 0 <= i < |table| && table[i] == r.value
                                                && forall j :: 0 <= j < i ==> !table[j].isDefault
    ensures (forall i :: 0 <= i < |table| ==> !table[i].isDefault) && |table| > 0 ==> r == Some(table[0])
  {
    match Find(table, IsDefault)
    case Some(h) => Some(h)
    case None => if |table| > 0 then Some(table[0]) else None
  }

  /** In a table whose slugs are distinct, looking up an entry's slug finds
      that entry. */
  lemma BySlugFindsEntry(table: seq<Hackathon>, i: nat)
    requires i < |table|
    requires forall a, b :: 0 <= a < b < |table| ==> table[a].slug != table[b].slug
    ensures BySlug(table, table[i].slug) == Some(table[i])
  {
  }

  /** In a table whose ids are distinct, looking up an entry's id finds that
      entry. */
  lemma ByIdFindsEntry(table: seq<Hackathon>, i: nat)
    requires i < |table|
    requires forall a, b :: 0 <= a < b < |table| ==> table[a].id != table[b].id
    ensures ById(table, table[i].id) == Some(table[i])
  {
  }

  /** The table: distinct slugs, distinct ids, exactly one default entry, and
      that entry is the one with slug "cypherpunk". */
  lemma TableFacts()
    ensures forall a, b :: 0 <= a < b < |Table| ==> Table[a].slug != Table[b].slug
    ensures forall a, b :: 0 <= a < b < |Table| ==> Table[a].id != Table[b].id
    ensures forall i :: 0 <= i < |Table| ==> (Table[i].isDefault <==> i == 0)
    ensures Default(Table) == BySlug(Table, "cypherpunk") == Some(Table[0])
  {
    assert Table[0].slug == "cypherpunk";
    assert BySlug(Table, Table[0].slug) == Some(Table[0]);
  }
}

=== FILE: insights.dfy ===
/** The "Key Insights" card (app/analytics.tsx): how the filtered projects
    compare with all projects, the track and the country with the highest
    average engagement, and the most common team size. Averages are exact
    fractions compared by cross-multiplication; a division by zero (NaN or
    Infinity in JavaScript) is `None`. */
module Insights {
  import opened Common
  import opened Projects
  import opened Tally
  import opened Sorting
  import opened Analytics

  // ---------------------------------------------------------------------------
  // Averages

  /** `total / count` of `a` is at most that of `b` (both counts positive). */
  predicate AvgAtMost<K>(a: Stat<K>, b: Stat<K>)
  {
    a.total * b.count <= b.total * a.count
  }

  predicate PositiveCounts<K>(t: seq<Stat<K>>)
  {
    forall i :: 0 <= i < |t| ==> t[i].count > 0
  }

  lemma AvgAtMostTrans<K>(a: Stat<K>, b: Stat<K>, c: Stat<K>)
    requires a.count > 0 && b.count > 0 && c.count > 0
    requires AvgAtMost(a, b) && AvgAtMost(b, c)
    ensures AvgAtMost(a, c)
  {
    var x := a.total * b.count * c.count;
    var y := b.total * a.count * c.count;
    var z := c.total * b.count * a.count;
    assert x <= y by {
      MulMono(a.total * b.count, b.total * a.count, c.count);
    }
    assert y <= z by {
      MulMono(b.total * c.count, c.total * b.count, a.count);
    }
    assert (a.total * c.count) * b.count <= (c.total * a.count) * b.count;
    MulCancel(a.total * c.count, c.total * a.count, b.count);
  }

  lemma MulMono(u: int, v: int, k: int)
    requires u <= v && k >= 0
    ensures u * k <= v * k
  {
  }

  lemma MulCancel(u: int, v: int, k: int)
    requires k > 0 && u * k <= v * k
    ensures u <= v
  {
    MulDiff(u, v, k);
  }

  lemma MulDiff(u: int, v: int, k: int)
    ensures (u - v) * k == u * k - v * k
    ensures u > v && k > 0 ==> (u - v) * k > 0
  {
  }

  /** The position of the first entry with the highest average: the head of
      a stable sort by descending average. */
  function BestIndex<K>(t: seq<Stat<K>>): (r: nat)
    requires |t| > 0 && PositiveCounts(t)
    ensures r < |t|
    ensures forall j :: 0 <= j < |t| ==> AvgAtMost(t[j], t[r])
    ensures forall j :: 0 <= j < r ==> !AvgAtMost(t[r], t[j])
    decreases |t|
  {
    if |t| == 1 then 0
    else
      var b := BestIndex(t[1..]) + 1;
      if AvgAtMost(t[b], t[0]) then
        assert forall j :: 0 <= j < |t| ==> AvgAtMost(t[j], t[0]) by {
          forall j | 0 <= j < |t| ensures AvgAtMost(t[j], t[0]) {
            if j > 0 {
              assert AvgAtMost(t[1..][j - 1], t[1..][b - 1]);
              AvgAtMostTrans(t[j], t[b], t[0]);
            }
          }
        }
        0
      else
        assert forall j :: 1 <= j < |t| ==> AvgAtMost(t[j], t[b]) by {
          forall j | 1 <= j < |t| ensures AvgAtMost(t[j], t[b]) {
            assert AvgAtMost(t[1..][j - 1], t[1..][b - 1]);
          }
        }
        assert forall j :: 1 <= j < b ==> !AvgAtMost(t[b], t[j]) by {
          forall j | 1 <= j < b ensures !AvgAtMost(t[b], t[j]) {
            assert !AvgAtMost(t[1..][b - 1], t[1..][j - 1]);
          }
        }
        b
  }

  /** The first-maximal position is unique: any position with both properties
      is the one `BestIndex` picks. */
  lemma BestIndexUnique<K>(t: seq<Stat<K>>, i: nat)
    requires |t| > 0 && PositiveCounts(t)
    requires i < |t|
    requires forall j :: 0 <= j < |t| ==> AvgAtMost(t[j], t[i])
    requires forall j :: 0 <= j < i ==> !AvgAtMost(t[i], t[j])
    ensures i == BestIndex(t)
  {
    var r := BestIndex(t);
    assert AvgAtMost(t[r], t[i]) && AvgAtMost(t[i], t[r]);
  }

  /** The entry of `key` in the tally: its weight sum and number of items. */
  function StatOf<K(==)>(items: seq<(K, int)>, k: K): Stat<K>
  {
    Stat(k, TotalOf(items, k), CountOf(items, k))
  }

  /** `Object.entries(acc).map(avg).sort(byAverageDesc)[0]`: the key with the
      highest average weight, the first one met among equals. */
  function TopByAverage<K(==)>(items: seq<(K, int)>): (r: Option<Stat<K>>)
    ensures r.None? <==> |items| == 0
  {
    var t := Tally.Tally(items);
    TallyEntries(items);
    if |items| == 0 then None
    else
      assert Keys(items)[0] in Keys(items);
      Some(t[BestIndex(t)])
  }

  /** The winner is an item key with its own total and count, no key has a
      higher average, and every key met before it has a strictly lower one. */
  lemma TopByAverageCorrect<K>(items: seq<(K, int)>)
    requires |items| > 0
    ensures var b := TopByAverage(items).value;
            && b == StatOf(items, b.key)
            && b.key in Keys(items)
            && b.count > 0
            && forall k :: k in Keys(items) ==> AvgAtMost(StatOf(items, k), b)
  {
    var t := Tally.Tally(items);
    TallyEntries(items);
    var b := TopByAverage(items).value;
    var r := BestIndex(t);
    assert t[r] == b;
    forall k | k in Keys(items) ensures AvgAtMost(StatOf(items, k), b) {
      var i :| 0 <= i < |t| && t[i].key == k;
    }
  }

  /** Ties go to the key whose first occurrence comes first. */
  lemma TopByAverageTies<K>(items: seq<(K, int)>, i: nat)
    requires i < |Tally.Tally(items)|
    requires AvgAtMost(TopByAverage(items).value, Tally.Tally(items)[i])
    ensures exists j :: 0 <= j <= i && Tally.Tally(items)[j] == TopByAverage(items).value
  {
    var t := Tally.Tally(items);
    TallyEntries(items);
    var r := BestIndex(t);
    assert t[r] == TopByAverage(items).value;
    assert r <= i;
  }

  /** The track with the highest average engagement per tag. */
  function TopTrack(fs: seq<Project>): (r: Option<Stat<string>>)
    ensures r.None? <==> AllTags(fs) == []
  {
    TrackItemKeys(fs);
    TopByAverage(TrackItems(fs))
  }

  /** The country with the highest average engagement per project. */
  function TopCountry(fs: seq<Project>): (r: Option<Stat<string>>)
    ensures r.None? <==> |fs| == 0
  {
    TopByAverage(CountryItems(fs))
  }

  /** The best track carries its own engagement sum and number of tags, and
      no track carried by a filtered project has a higher average. */
  lemma TopTrackCorrect(fs: seq<Project>)
    requires AllTags(fs) != []
    ensures var b := TopTrack(fs).value;
            && b.key in AllTags(fs)
            && b.count == multiset(AllTags(fs))[b.key]
            && forall t :: t in AllTags(fs) ==> AvgAtMost(StatOf(TrackItems(fs), t), b)
  {
    TrackItemKeys(fs);
    TopByAverageCorrect(TrackItems(fs));
    CountOfIsMultiplicity(TrackItems(fs), TopTrack(fs).value.key);
  }

  /** The best country has the highest engagement per project among the
      countries of the filtered projects. */
  lemma TopCountryCorrect(fs: seq<Project>)
    requires |fs| > 0
    ensures var b := TopCountry(fs).value;
            && (exists i :: 0 <= i < |fs| && fs[i].country == b.key)
            && forall i :: 0 <= i < |fs| ==> AvgAtMost(StatOf(CountryItems(fs), fs[i].country), b)
  {
    var items := CountryItems(fs);
    TopByAverageCorrect(items);
    var b := TopCountry(fs).value;
    var j :| 0 <= j < |items| && Keys(items)[j] == b.key;
    assert fs[j].country == b.key;
    forall i | 0 <= i < |fs| ensures AvgAtMost(StatOf(items, fs[i].country), b) {
      assert Keys(items)[i] == fs[i].country;
    }
  }

  // ---------------------------------------------------------------------------
  // Most common team size

  /** `Object.entries(teamSizeCounts).sort(byCountDesc)[0]`: entries start in
      ascending size order, so among equally common sizes the smallest wins. */
  function MostCommonTeamSize(fs: seq<Project>): (r: Option<Stat<int>>)
    ensures r.None? <==> |fs| == 0
  {
    var d := TeamSizeData(fs);
    var r := SortDesc(d, StatCount);
    if |fs| == 0 then None
    else
      TeamSizeDataCovers(fs, 0);
      Some(r[0])
  }

  /** The winning size is the size of some project, with its number of
      projects; no size is more common; and no smaller size is as common. */
  lemma MostCommonTeamSizeCorrect(fs: seq<Project>)
    requires |fs| > 0
    ensures var b := MostCommonTeamSize(fs).value;
            var sizes := multiset(Keys(SizeItems(fs)));
            && (exists i :: 0 <= i < |fs| && TeamSize(fs[i]) == b.key)
            && b.count == sizes[b.key]
            && forall i :: 0 <= i < |fs| ==>
                 sizes[TeamSize(fs[i])] <= b.count
                 && (sizes[TeamSize(fs[i])] == b.count ==> b.key <= TeamSize(fs[i]))
  {
    MostCommonIsRow(fs);
    forall i | 0 <= i < |fs|
      ensures var b := MostCommonTeamSize(fs).value;
              var sizes := multiset(Keys(SizeItems(fs)));
              sizes[TeamSize(fs[i])] <= b.count
              && (sizes[TeamSize(fs[i])] == b.count ==> b.key <= TeamSize(fs[i]))
    {
      MostCommonBeats(fs, i);
    }
  }

  lemma MostCommonIsRow(fs: seq<Project>)
    requires |fs| > 0
    ensures var b := MostCommonTeamSize(fs).value;
            && (exists i :: 0 <= i < |fs| && TeamSize(fs[i]) == b.key)
            && b.count == multiset(Keys(SizeItems(fs)))[b.key]
  {
    var d := TeamSizeData(fs);
    var items := SizeItems(fs);
    var k := SortDescFrom(d, StatCount, 0);
    RankedRow(items, NegKey, k);
    var w :| 0 <= w < |Keys(items)| && Keys(items)[w] == d[k].key;
    assert TeamSize(fs[w]) == d[k].key;
  }

  lemma MostCommonBeats(fs: seq<Project>, i: nat)
    requires i < |fs|
    ensures var b := MostCommonTeamSize(fs).value;
            var sizes := multiset(Keys(SizeItems(fs)));
            sizes[TeamSize(fs[i])] <= b.count
            && (sizes[TeamSize(fs[i])] == b.count ==> b.key <= TeamSize(fs[i]))
  {
    var d := TeamSizeData(fs);
    var r := SortDesc(d, StatCount);
    TeamSizeDataCovers(fs, i);
    var j :| 0 <= j < |d| && d[j].key == TeamSize(fs[i]) && d[j].count == multiset(Keys(SizeItems(fs)))[TeamSize(fs[i])];
    SortDescHeadBeats(d, StatCount, j);
    if d[j].count == r[0].count {
      var m := MostCommonTie(d, j);
      if m < j {
        TeamSizeDataBefore(fs, m, j);
      }
    }
  }

  /** The head of the stable sort by count is the first entry, in input
      order, with the highest count: it comes no later than any entry with
      that count. */
  lemma MostCommonTie(d: seq<Stat<int>>, j: nat) returns (m: nat)
    requires |d| > 0 && j < |d| && d[j].count == SortDesc(d, StatCount)[0].count
    ensures m <= j && SortDesc(d, StatCount)[0] == d[m]
  {
    var r := SortDesc(d, StatCount);
    var p := KeyEq(StatCount, r[0].count);
    SortDescStable(d, StatCount, r[0].count);
    FilterHead(r, p);
    m := FilterFirst(d, p, j);
  }

  // ---------------------------------------------------------------------------
  // Comparisons with all projects

  /** Average likes + comments per project; 0 for no projects. */
  function AvgEngagement(ps: seq<Project>): (r: Ratio)
    ensures r.den > 0
    ensures |ps| == 0 ==> r.num == 0
    ensures r.num == ComputeMetrics(ps).totalEngagement && (|ps| > 0 ==> r.den == |ps|)
  {
    if |ps| > 0 then Ratio(SumOf(ps, Engagement), |ps|) else Ratio(0, 1)
  }

  /** Average team size; 0 for no projects. */
  function AvgTeamSize(ps: seq<Project>): (r: Ratio)
    ensures r.den > 0
    ensures |ps| == 0 ==> r.num == 0
    ensures r == ComputeMetrics(ps).avgTeamSize
  {
    if |ps| > 0 then Ratio(SumOf(ps, TeamSize), |ps|) else Ratio(0, 1)
  }

  /** Percentage of projects with a truthy link; 0 for no projects. */
  function CompletionRate(ps: seq<Project>): (r: Ratio)
    ensures r.den > 0
    ensures 0 <= r.num <= 100 * r.den
    ensures r == ComputeMetrics(ps).completionRate
  {
    if |ps| > 0 then Ratio(100 * WithLinks(ps), |ps|) else Ratio(0, 1)
  }

  /** `((f - a) / a) * 100`: `None` when `a` is zero, where JavaScript yields
      NaN or an infinity; otherwise positive exactly when `f` exceeds `a`
      (for a positive `a`) and zero exactly when they are equal. */
  function PercentChange(f: Ratio, a: Ratio): (r: Option<Ratio>)
    requires f.den > 0 && a.den > 0
    ensures r.None? <==> a.num == 0
    ensures r.Some? ==> r.value.den > 0
    ensures r.Some? ==> (r.value.num == 0 <==> f.num * a.den == a.num * f.den)
    ensures r.Some? && a.num > 0 ==> (r.value.num > 0 <==> f.num * a.den > a.num * f.den)
    ensures r.Some? ==> r.value.num * f.den * a.num == 100 * (f.num * a.den - a.num * f.den) * r.value.den
  {
    var diff := f.num * a.den - a.num * f.den;
    if a.num == 0 then None
    else if a.num > 0 then Some(Ratio(100 * diff, f.den * a.num))
    else Some(Ratio(-100 * diff, f.den * -a.num))
  }

  /** JavaScript's `x.toFixed(0)` for a non-negative `x`: the nearest
      integer, halves rounded up. */
  function RoundHalfUp(x: Ratio): (n: int)
    requires x.den > 0 && x.num >= 0
    ensures 2 * x.num - x.den < 2 * n * x.den <= 2 * x.num + x.den
  {
    (2 * x.num + x.den) / (2 * x.den)
  }

  /** `Number(metrics.completionRate) - allCompletionRate`: the filtered rate
      was already rounded to a whole percentage, the overall one was not. */
  function CompletionDiff(fs: seq<Project>, all: seq<Project>): (r: Ratio)
    ensures r.den == CompletionRate(all).den > 0
  {
    var f := CompletionRate(fs);
    var a := CompletionRate(all);
    Ratio(RoundHalfUp(f) * a.den - a.num, a.den)
  }

  /** The rounding shows through: three projects, one with a link, compared
      with themselves give -1/3 percentage point rather than 0. */
  lemma CompletionDiffRounding(p: Project, q: Project)
    requires HasLink(p) && !HasLink(q)
    ensures CompletionDiff([p, q, q], [p, q, q]) == Ratio(-1, 3)
  {
    var ps := [p, q, q];
    assert Filter([q], HasLink) == [] by {
      assert [q][1..] == [];
    }
    assert Filter([q, q], HasLink) == [] by {
      assert [q, q][1..] == [q];
    }
    assert Filter(ps, HasLink) == [p] by {
      assert ps[1..] == [q, q];
    }
    assert CompletionRate(ps) == Ratio(100, 3);
  }

  /** When the filtered rate is a whole percentage, comparing a set of
      projects with itself reports no difference. */
  lemma CompletionDiffSelfWhole(ps: seq<Project>)
    requires CompletionRate(ps).num % CompletionRate(ps).den == 0
    ensures CompletionDiff(ps, ps).num == 0
  {
    WholeRoundsToItself(CompletionRate(ps));
  }

  /** A non-negative whole number rounds to itself. */
  lemma WholeRoundsToItself(f: Ratio)
    requires f.den > 0 && f.num >= 0 && f.num % f.den == 0
    ensures RoundHalfUp(f) * f.den == f.num
  {
    var q := f.num / f.den;
    assert f.num == q * f.den;
    DivUnique(2 * f.num + f.den, 2 * f.den, q, f.den);
  }

  lemma DivUnique(x: int, m: int, q: int, rem: int)
    requires 0 <= rem < m && x == q * m + rem
    ensures x / m == q
  {
    var q' := x / m;
    var rem' := x % m;
    assert x == q' * m + rem';
    MulDiff(q, q', m);
    assert (q - q') * m == rem' - rem;
    MulBound(q - q', m);
  }

  lemma MulBound(d: int, m: int)
    requires m > 0
    ensures d >= 1 ==> d * m >= m
    ensures d <= -1 ==> d * m <= -m
  {
  }

  /** The insights memo. */
  datatype Insights = Insights(
    engagementDiff: Option<Ratio>,
    teamSizeDiff: Option<Ratio>,
    completionDiff: Ratio,
    topTrack: Option<Stat<string>>,
    topCountry: Option<Stat<string>>,
    mostCommonTeamSize: Option<Stat<int>>,
    filteredAvgEngagement: Ratio,
    allAvgEngagement: Ratio
  )

  function ComputeInsights(all: seq<Project>, fs: seq<Project>): (r: Insights)
    ensures r.engagementDiff.None? <==> SumOf(all, Engagement) == 0
    ensures r.allAvgEngagement == AvgEngagement(all) && r.filteredAvgEngagement == AvgEngagement(fs)
    ensures r.teamSizeDiff.None? <==> SumOf(all, TeamSize) == 0
    ensures r.topTrack.None? <==> AllTags(fs) == []
    ensures r.topCountry.None? <==> |fs| == 0
    ensures r.mostCommonTeamSize.None? <==> |fs| == 0
    ensures all == [] ==> r.engagementDiff.None? && r.teamSizeDiff.None?
  {
    Insights(
      PercentChange(AvgEngagement(fs), AvgEngagement(all)),
      PercentChange(AvgTeamSize(fs), AvgTeamSize(all)),
      CompletionDiff(fs, all),
      TopTrack(fs),
      TopCountry(fs),
      MostCommonTeamSize(fs),
      AvgEngagement(fs),
      AvgEngagement(all)
    )
  }

  /** Comparing a set of projects with itself reports no change wherever a
      change is defined. */
  lemma SelfComparison(ps: seq<Project>)
    ensures var r := ComputeInsights(ps, ps);
            && (r.engagementDiff.Some? ==> r.engagementDiff.value.num == 0)
            && (r.teamSizeDiff.Some? ==> r.teamSizeDiff.value.num == 0)
  {
  }
}

=== FILE: pagination.dfy ===
/** Pagination of the table view (app/page.tsx): the page count, the slice
    shown for the current page, and the controls that move the current page
    (first/prev/next/last buttons, the page-number box, the page-size select
    and the shuffle button). */
module Pagination {
  import opened Common
  import opened Digits
  import Shuffle

  // ---------------------------------------------------------------------------
  // Page arithmetic

  /** `Math.ceil(n / itemsPerPage)`; zero for an empty list. */
  function TotalPages(n: nat, itemsPerPage: int): (r: nat)
    requires itemsPerPage > 0
    ensures r * itemsPerPage >= n
    ensures r > 0 ==> (r - 1) * itemsPerPage < n
    ensures r == 0 <==> n == 0
  {
    (n + itemsPerPage - 1) / itemsPerPage
  }

  /** The page count as displayed: `totalPages || 1`. */
  function DisplayedTotal(totalPages: nat): (r: nat)
    ensures r >= 1
    ensures totalPages > 0 ==> r == totalPages
  {
    if totalPages == 0 then 1 else totalPages
  }

  /** `Array.prototype.slice` index normalisation: negative indices count from the end. */
  function SliceIndex(i: int, len: nat): (r: nat)
    ensures r <= len
    ensures i >= 0 ==> r == if i <= len then i else len
    ensures i < 0 && -i <= len ==> len - r == -i
    ensures i + len < 0 ==> r == 0
  {
    if i < 0 then (if len + i < 0 then 0 else len + i) else if i <= len then i else len
  }

  /** `s.slice(start, end)` */
  function JsSlice<T>(s: seq<T>, start: int, end: int): (r: seq<T>)
  {
    var from := SliceIndex(start, |s|);
    var to := SliceIndex(end, |s|);
    if from >= to then [] else s[from..to]
  }

  function Min(a: int, b: int): int
  {
    if a <= b then a else b
  }

  /** `currentProjects`: the slice from `(currentPage - 1) * itemsPerPage`,
      `itemsPerPage` long. */
  function CurrentProjects<T>(list: seq<T>, currentPage: int, itemsPerPage: int): seq<T>
  {
    var startIndex := (currentPage - 1) * itemsPerPage;
    JsSlice(list, startIndex, startIndex + itemsPerPage)
  }

  /** Page `p >= 1` is `list[(p-1)*ipp .. min(p*ipp, n))` clamped to the list, and
      holds at most `itemsPerPage` items. */
  lemma PageContents<T>(list: seq<T>, p: int, itemsPerPage: int)
    requires p >= 1 && itemsPerPage > 0
    ensures var lo := Min((p - 1) * itemsPerPage, |list|);
            var hi := Min(p * itemsPerPage, |list|);
            CurrentProjects(list, p, itemsPerPage) == list[lo..hi]
    ensures |CurrentProjects(list, p, itemsPerPage)| <= itemsPerPage
    ensures p <= TotalPages(|list|, itemsPerPage) ==> |CurrentProjects(list, p, itemsPerPage)| > 0
  {
    PageStart(p, itemsPerPage, |list|);
  }

  /** The arithmetic behind a page's start index. */
  lemma PageStart(p: int, itemsPerPage: int, n: nat)
    requires p >= 1 && itemsPerPage > 0
    ensures (p - 1) * itemsPerPage >= 0
    ensures (p - 1) * itemsPerPage + itemsPerPage == p * itemsPerPage
    ensures p <= TotalPages(n, itemsPerPage) ==> (p - 1) * itemsPerPage < n
  {
    MulLe(0, p - 1, itemsPerPage);
    if p <= TotalPages(n, itemsPerPage) {
      MulLe(p - 1, TotalPages(n, itemsPerPage) - 1, itemsPerPage);
    }
  }

  /** Pages `1..m` laid end to end. */
  function FirstPages<T>(list: seq<T>, m: nat, itemsPerPage: int): seq<seq<T>>
    requires itemsPerPage > 0
  {
    seq(m, k requires 0 <= k < m => CurrentProjects(list, k + 1, itemsPerPage))
  }

  lemma {:induction false} FirstPagesFlatten<T>(list: seq<T>, m: nat, itemsPerPage: int)
    requires itemsPerPage > 0
    ensures Flatten(FirstPages(list, m, itemsPerPage)) == list[..Min(m * itemsPerPage, |list|)]
    decreases m
  {
    if m == 0 {
      assert FirstPages(list, 0, itemsPerPage) == [];
    } else {
      FirstPagesFlatten(list, m - 1, itemsPerPage);
      FirstPagesSnoc(list, m, itemsPerPage);
      PageContents(list, m, itemsPerPage);
      PageStart(m, itemsPerPage, |list|);
      PrefixJoin(list, Min((m - 1) * itemsPerPage, |list|), Min(m * itemsPerPage, |list|));
    }
  }

  lemma PrefixJoin<T>(s: seq<T>, lo: nat, hi: nat)
    requires lo <= hi <= |s|
    ensures s[..lo] + s[lo..hi] == s[..hi]
  {
  }

  /** Flattening pages `1..m` appends page `m` to pages `1..m-1`. */
  lemma FirstPagesSnoc<T>(list: seq<T>, m: nat, itemsPerPage: int)
    requires itemsPerPage > 0 && m > 0
    ensures Flatten(FirstPages(list, m, itemsPerPage))
            == Flatten(FirstPages(list, m - 1, itemsPerPage)) + CurrentProjects(list, m, itemsPerPage)
  {
    var prev := FirstPages(list, m - 1, itemsPerPage);
    var page := CurrentProjects(list, m, itemsPerPage);
    assert FirstPages(list, m, itemsPerPage) == prev + [page];
    FlattenAppend(prev, [page]);
    assert Flatten([page]) == page + Flatten([]);
  }

  /** Concatenating pages `1..totalPages` gives back the whole list, in order. */
  lemma PagesCoverList<T>(list: seq<T>, itemsPerPage: int)
    requires itemsPerPage > 0
    ensures Flatten(FirstPages(list, TotalPages(|list|, itemsPerPage), itemsPerPage)) == list
  {
    FirstPagesFlatten(list, TotalPages(|list|, itemsPerPage), itemsPerPage);
  }

  // ---------------------------------------------------------------------------
  // Page controls

  /** `currentPage`, the text of the page box, and `itemsPerPage`. */
  datatype PageState = PageState(currentPage: int, pageInput: string, itemsPerPage: int)

  const InitialPageState: PageState := PageState(1, "1", 20)

  /** `setCurrentPage(p)` together with the effect that copies the page into the
      box: React re-runs that effect only when the value actually changes. */
  function SetPage(st: PageState, p: int): (r: PageState)
    ensures r.currentPage == p && r.itemsPerPage == st.itemsPerPage
    ensures p != st.currentPage ==> r.pageInput == IntToString(p)
    ensures p == st.currentPage ==> r == st
  {
    if p == st.currentPage then st else st.(currentPage := p, pageInput := IntToString(p))
  }

  /** `handlePageInputChange`: the box accepts only digit strings. */
  function PageInputChange(st: PageState, value: string): (r: PageState)
    ensures AllDigits(value) ==> r == st.(pageInput := value)
    ensures !AllDigits(value) ==> r == st
  {
    if AllDigits(value) then st.(pageInput := value) else st
  }

  /** `handlePageInputSubmit`: a parsed number in `[1, totalPages]` becomes the
      current page; anything else puts the current page back into the box. */
  function PageInputSubmit(st: PageState, totalPages: nat): (r: PageState)
    ensures r.itemsPerPage == st.itemsPerPage
    ensures r.currentPage == st.currentPage || 1 <= r.currentPage <= totalPages
    ensures r.currentPage != st.currentPage ==> ParseDigits(st.pageInput) == Some(r.currentPage as nat)
    ensures ParseDigits(st.pageInput).Some? && 1 <= ParseDigits(st.pageInput).value <= totalPages ==>
              r.currentPage == ParseDigits(st.pageInput).value
    ensures (match ParseDigits(st.pageInput)
             case Some(k) => 1 <= k <= totalPages
             case None => false) || r.pageInput == IntToString(st.currentPage)
  {
    match ParseDigits(st.pageInput)
    case Some(k) =>
      if 1 <= k <= totalPages then SetPage(st, k) else st.(pageInput := IntToString(st.currentPage))
    case None => st.(pageInput := IntToString(st.currentPage))
  }

  /** The "previous" button: `Math.max(1, prev - 1)`. */
  function PrevPage(currentPage: int): (r: int)
    ensures r >= 1
    ensures currentPage > 1 ==> r == currentPage - 1
    ensures r <= currentPage || r == 1
  {
    if 1 >= currentPage - 1 then 1 else currentPage - 1
  }

  /** The "next" button as written: `Math.min(totalPages, prev + 1)`. */
  function NextPageAsWritten(currentPage: int, totalPages: nat): (r: int)
    ensures r <= totalPages
    ensures currentPage < totalPages ==> r == currentPage + 1
  {
    if totalPages <= currentPage + 1 then totalPages else currentPage + 1
  }

  /** With no matching project there are zero pages, the "next" button is not
      disabled on page 1 (`1 !== 0`), and clicking it moves to page 0. */
  lemma NextPageAsWrittenLeavesRange()
    ensures NextPageAsWritten(1, 0) == 0
    ensures NextPageAsWritten(1, 0) < 1
  {
  }

  /** Page 0 shows nothing, whatever the list: `slice(-itemsPerPage, 0)` is
      empty. Page 0 survives later filter changes, so the table stays empty
      even once projects match again. */
  lemma PageZeroShowsNothing<T>(list: seq<T>, itemsPerPage: int)
    requires itemsPerPage > 0
    ensures CurrentProjects(list, 0, itemsPerPage) == []
  {
  }

  /** The current page is not clamped when the filtered list shrinks: a page
      past the new last page shows nothing. */
  lemma StalePageShowsNothing<T>(list: seq<T>, p: int, itemsPerPage: int)
    requires itemsPerPage > 0 && p > TotalPages(|list|, itemsPerPage)
    ensures CurrentProjects(list, p, itemsPerPage) == []
  {
    PageContents(list, p, itemsPerPage);
    var n := TotalPages(|list|, itemsPerPage);
    assert (p - 1) * itemsPerPage >= n * itemsPerPage by {
      assert p - 1 >= n;
      MulLe(n, p - 1, itemsPerPage);
    }
  }

  lemma MulLe(a: int, b: int, k: int)
    requires a <= b && k >= 0
    ensures a * k <= b * k
  {
  }

  /** The "next" button as evidently intended: never past the last page and
      never below page 1 (the page count shown is `totalPages || 1`). */
  function NextPage(currentPage: int, totalPages: nat): (r: int)
    ensures r >= 1
    ensures r <= DisplayedTotal(totalPages)
    ensures totalPages > 0 && 1 <= currentPage < totalPages ==> r == currentPage + 1
    ensures totalPages > 0 ==> r == NextPageAsWritten(currentPage, totalPages) || currentPage < 0
  {
    var n := NextPageAsWritten(currentPage, totalPages);
    if n < 1 then 1 else n
  }

  /** The "last" button, `setCurrentPage(totalPages)`, as evidently intended:
      as written it too moves to page 0 when there are zero pages. The page it
      selects is one that "next" does not move past. */
  function LastPage(totalPages: nat): (r: int)
    ensures r >= 1
    ensures totalPages > 0 ==> r == totalPages
    ensures NextPage(r, totalPages) == r
  {
    DisplayedTotal(totalPages)
  }

  /** The controls of the pagination bar. */
  datatype PageAction =
    | First | Prev | Next | Last
    | InputChange(value: string)
    | InputSubmit
    | PageSize(size: int)

  /** One user action on the pagination bar, given the current page count, with
      the corrected next/last buttons (`NextPage`, `LastPage`). The first/prev
      buttons are disabled on page 1 and next/last on the last page. */
  function Step(st: PageState, totalPages: nat, a: PageAction): (r: PageState)
    ensures a.First? ==> r.currentPage == 1
    ensures a.Next? && st.currentPage < totalPages ==> r.currentPage == st.currentPage + 1 || st.currentPage < 0
    ensures a.Last? && st.currentPage != totalPages ==> r.currentPage == DisplayedTotal(totalPages)
    ensures (a.Next? || a.Last?) && st.currentPage == totalPages ==> r == st
    ensures a.InputChange? ==> r.currentPage == st.currentPage
    ensures a.PageSize? ==> r.currentPage == 1 && r.itemsPerPage == a.size
    ensures !a.PageSize? ==> r.itemsPerPage == st.itemsPerPage
  {
    match a
    case First => if st.currentPage == 1 then st else SetPage(st, 1)
    case Prev => if st.currentPage == 1 then st else SetPage(st, PrevPage(st.currentPage))
    case Next => if st.currentPage == totalPages then st else SetPage(st, NextPage(st.currentPage, totalPages))
    case Last => if st.currentPage == totalPages then st else SetPage(st, LastPage(totalPages))
    case InputChange(v) => PageInputChange(st, v)
    case InputSubmit => PageInputSubmit(st, totalPages)
    case PageSize(size) => SetPage(st.(itemsPerPage := size), 1)
  }

  /** The pagination bar as written: identical to `Step` except that next is
      `Math.min(totalPages, prev + 1)` and last is `setCurrentPage(totalPages)`.
      The two agree whenever there is a page and the current page is at least 1. */
  function StepAsWritten(st: PageState, totalPages: nat, a: PageAction): (r: PageState)
    ensures totalPages > 0 && st.currentPage >= 1 ==> r == Step(st, totalPages, a)
    ensures a.Last? ==> r.currentPage == totalPages
  {
    match a
    case Next => if st.currentPage == totalPages then st else SetPage(st, NextPageAsWritten(st.currentPage, totalPages))
    case Last => if st.currentPage == totalPages then st else SetPage(st, totalPages)
    case _ => Step(st, totalPages, a)
  }

  /** What every control keeps: the page is at least 1, the box holds digits
      only, and the page size is positive. */
  predicate Good(st: PageState)
  {
    st.currentPage >= 1 && AllDigits(st.pageInput) && st.itemsPerPage > 0
  }

  lemma IntToStringDigits(n: int)
    requires n >= 0
    ensures AllDigits(IntToString(n))
  {
  }

  /** With the corrected next/last, every control preserves `Good`, whatever
      the page count, so the current page never drops below 1. Changing the page
      size resets to page 1. */
  lemma StepPreservesGood(st: PageState, totalPages: nat, a: PageAction)
    requires Good(st)
    requires a.PageSize? ==> a.size > 0
    ensures Good(Step(st, totalPages, a))
    ensures a.PageSize? ==> Step(st, totalPages, a).currentPage == 1
  {
    IntToStringDigits(st.currentPage);
    match a
    case First => IntToStringDigits(1);
    case Prev => IntToStringDigits(PrevPage(st.currentPage));
    case Next => IntToStringDigits(NextPage(st.currentPage, totalPages));
    case Last => IntToStringDigits(LastPage(totalPages));
    case InputChange(v) =>
    case InputSubmit =>
      if ParseDigits(st.pageInput).Some? {
        IntToStringDigits(ParseDigits(st.pageInput).value);
      }
    case PageSize(size) => IntToStringDigits(1);
  }

  /** While there is at least one page, every control of the bar as written
      keeps the current page within `[1, totalPages]`. */
  lemma StepStaysInRange(st: PageState, totalPages: nat, a: PageAction)
    requires totalPages > 0 && 1 <= st.currentPage <= totalPages
    ensures 1 <= StepAsWritten(st, totalPages, a).currentPage <= totalPages
    ensures StepAsWritten(st, totalPages, a) == Step(st, totalPages, a)
  {
  }

  /** The bar as written does not keep `Good`: with zero pages, "next" and
      "last" on page 1 both move to page 0. */
  lemma StepAsWrittenBreaksGood()
    ensures Good(InitialPageState)
    ensures !Good(StepAsWritten(InitialPageState, 0, Next))
    ensures !Good(StepAsWritten(InitialPageState, 0, Last))
  {
    IntToStringDigits(1);
  }

  /** `handleShuffle`: with projects loaded, a fresh shuffle and page 1;
      otherwise nothing changes. */
  function HandleShuffle<T>(mapped: seq<T>, shuffled: seq<T>, draws: seq<int>, st: PageState): (r: (seq<T>, PageState))
    requires Shuffle.ValidDraws(|mapped|, draws)
    ensures |mapped| > 0 ==> multiset(r.0) == multiset(mapped) && r.1.currentPage == 1
    ensures |mapped| > 0 ==> r.1.itemsPerPage == st.itemsPerPage
    ensures |mapped| == 0 ==> r == (shuffled, st)
  {
    if |mapped| > 0 then (Shuffle.ShuffleArray(mapped, draws), SetPage(st, 1)) else (shuffled, st)
  }

  /** The first shuffle once data arrives: only while nothing has been shuffled yet. */
  function InitialShuffle<T>(mapped: seq<T>, shuffled: seq<T>, draws: seq<int>): (r: seq<T>)
    requires Shuffle.ValidDraws(|mapped|, draws)
    ensures |mapped| > 0 && |shuffled| == 0 ==> multiset(r) == multiset(mapped)
    ensures !(|mapped| > 0 && |shuffled| == 0) ==> r == shuffled
  {
    if |mapped| > 0 && |shuffled| == 0 then Shuffle.ShuffleArray(mapped, draws) else shuffled
  }
}

=== FILE: projects.dfy ===
/** The project record of the dashboard (app/page.tsx, interfaces `TeamMember`
    and `Project`) and the track-name normalisation applied once after the
    fetch (`mapTrackName`, `mappedProjects`). Only the fields the filtering,
    sorting and analytics read are kept. */
module Projects {
  import opened Common

  datatype TeamMember = TeamMember(id: int, username: string, displayName: string)

  datatype Project = Project(
    id: int,
    name: string,
    slug: string,
    description: string,
    country: string,
    tracks: seq<string>,
    teamMembers: seq<TeamMember>,
    likes: int,
    comments: int,
    isUniversityProject: bool,
    repoLink: Option<string>,
    presentationLink: Option<string>,
    technicalDemoLink: Option<string>,
    submittedAt: string
  )

  /** JavaScript truthiness of a `string | null` field: present and non-empty. */
  predicate Truthy(link: Option<string>)
  {
    link.Some? && |link.value| > 0
  }

  /** `p.repoLink || p.presentationLink || p.technicalDemoLink` is truthy. */
  predicate HasLink(p: Project)
  {
    Truthy(p.repoLink) || Truthy(p.presentationLink) || Truthy(p.technicalDemoLink)
  }

  function TeamSize(p: Project): int
  {
    |p.teamMembers|
  }

  /** The engagement score of the analytics view: likes plus comments. */
  function Engagement(p: Project): int
  {
    p.likes + p.comments
  }

  const ConsumerApps: string := "Consumer Apps"
  const Consumer: string := "Consumer"

  /** Renames the upstream track "Consumer Apps" to "Consumer". */
  function MapTrackName(track: string): (r: string)
    ensures track == ConsumerApps ==> r == Consumer
    ensures track != ConsumerApps ==> r == track
    ensures r != ConsumerApps
  {
    if track == ConsumerApps then Consumer else track
  }

  lemma MapTrackNameIdempotent(track: string)
    ensures MapTrackName(MapTrackName(track)) == MapTrackName(track)
  {
  }

  function MapTracks(tracks: seq<string>): (r: seq<string>)
    ensures |r| == |tracks|
    ensures forall i :: 0 <= i < |tracks| ==> r[i] == MapTrackName(tracks[i])
  {
    seq(|tracks|, i requires 0 <= i < |tracks| => MapTrackName(tracks[i]))
  }

  function MapProject(p: Project): Project
  {
    p.(tracks := MapTracks(p.tracks))
  }

  /** `mappedProjects`: no data yet gives the empty list; otherwise every project
      with its tracks renamed and every other field untouched. */
  function MappedProjects(data: Option<seq<Project>>): (r: seq<Project>)
    ensures data.None? ==> r == []
    ensures data.Some? ==> |r| == |data.value|
    ensures data.Some? ==> forall i :: 0 <= i < |r| ==>
              r[i].(tracks := data.value[i].tracks) == data.value[i]
              && |r[i].tracks| == |data.value[i].tracks|
              && forall j :: 0 <= j < |r[i].tracks| ==> r[i].tracks[j] == MapTrackName(data.value[i].tracks[j])
  {
    match data
    case None => []
    case Some(ps) => seq(|ps|, i requires 0 <= i < |ps| => MapProject(ps[i]))
  }

  /** Normalising an already normalised list changes nothing. */
  lemma MappedProjectsIdempotent(ps: seq<Project>)
    ensures MappedProjects(Some(MappedProjects(Some(ps)))) == MappedProjects(Some(ps))
  {
    var once := MappedProjects(Some(ps));
    var twice := MappedProjects(Some(once));
    forall i | 0 <= i < |ps| ensures twice[i] == once[i] {
      assert MapTracks(once[i].tracks) == once[i].tracks;
    }
  }

  /** After normalisation no project carries the track "Consumer Apps". */
  lemma MappedProjectsNoConsumerApps(data: Option<seq<Project>>)
    ensures forall i, j :: 0 <= i < |MappedProjects(data)| && 0 <= j < |MappedProjects(data)[i].tracks| ==>
              MappedProjects(data)[i].tracks[j] != ConsumerApps
  {
  }
}

=== FILE: selector.dfy ===
/** The hackathon selector (components/hackathon-selector.tsx): the current
    slug is the first non-empty "/"-separated segment of the pathname, with
    "cypherpunk" when there is none, and choosing a hackathon navigates to
    "/" + its slug. Navigation itself is not modelled: the pushed path is the
    result. */
module Selector {
  import opened Common
  import opened Hackathons

  const DefaultSlug: string := "cypherpunk"

  /** `s.split("/")`: the pieces between separators, so always at least one
      (the empty string gives `[""]`). */
  function Split(s: string): (r: seq<string>)
    ensures |r| > 0
    ensures forall i :: 0 <= i < |r| ==> '/' !in r[i]
    ensures |r| == 1 + |Filter(s, IsSlash)|
    decreases |s|
  {
    if |s| == 0 then [""]
    else
      var rest := Split(s[1..]);
      assert s == [s[0]] + s[1..];
      if s[0] == '/' then [""] + rest
      else [[s[0]] + rest[0]] + rest[1..]
  }

  predicate IsSlash(c: char)
  {
    c == '/'
  }

  /** `parts.join("/")` */
  function Join(parts: seq<string>): string
    decreases |parts|
  {
    if |parts| == 0 then ""
    else if |parts| == 1 then parts[0]
    else parts[0] + "/" + Join(parts[1..])
  }

  /** Splitting and joining back gives the string again. */
  lemma {:induction false} JoinSplit(s: string)
    ensures Join(Split(s)) == s
    decreases |s|
  {
    if |s| > 0 {
      JoinSplit(s[1..]);
      var rest := Split(s[1..]);
      if s[0] == '/' {
        assert Join([""] + rest) == "" + "/" + Join(rest);
      } else {
        var r := [[s[0]] + rest[0]] + rest[1..];
        if |rest| == 1 {
          assert Join(r) == [s[0]] + rest[0];
        } else {
          assert r[1..] == rest[1..];
          assert Join(r) == [s[0]] + rest[0] + "/" + Join(rest[1..]);
          assert Join(rest) == rest[0] + "/" + Join(rest[1..]);
        }
      }
      assert s == [s[0]] + s[1..];
    }
  }

  /** Splitting text without a separator gives that text alone. */
  lemma {:induction false} SplitNoSlash(s: string)
    requires '/' !in s
    ensures Split(s) == [s]
    decreases |s|
  {
    if |s| > 0 {
      SplitNoSlash(s[1..]);
      assert s == [s[0]] + s[1..];
    }
  }

  predicate NonEmpty(seg: string)
  {
    |seg| > 0
  }

  /** `pathname?.split("/").filter(Boolean) || []` */
  function PathSegments(pathname: Option<string>): (r: seq<string>)
    ensures forall i :: 0 <= i < |r| ==> |r[i]| > 0 && '/' !in r[i]
    ensures pathname.None? ==> r == []
  {
    match pathname
    case None => []
    case Some(p) =>
      var segs := Split(p);
      var r := Filter(segs, NonEmpty);
      FilterMultiset(segs, NonEmpty);
      assert forall i :: 0 <= i < |r| ==> r[i] in multiset(segs);
      r
  }

  /** `pathSegments[0] || "cypherpunk"` */
  function CurrentSlug(pathname: Option<string>): (r: string)
    ensures |r| > 0 && '/' !in r
  {
    var segs := PathSegments(pathname);
    if |segs| > 0 then segs[0] else DefaultSlug
  }

  /** The current slug is the first non-empty segment of the pathname: every
      segment before it is empty. */
  lemma CurrentSlugIsFirstSegment(p: string, j: nat)
    requires j < |Split(p)| && |Split(p)[j]| > 0
    ensures exists m :: 0 <= m <= j && CurrentSlug(Some(p)) == Split(p)[m]
                        && forall i :: 0 <= i < m ==> Split(p)[i] == ""
  {
    var m := FilterFirst(Split(p), NonEmpty, j);
  }

  /** Without a non-empty segment (no pathname, "/", "//", ...) the slug is
      "cypherpunk". */
  lemma CurrentSlugDefault(pathname: Option<string>)
    requires pathname.Some? ==> forall i :: 0 <= i < |Split(pathname.value)| ==> Split(pathname.value)[i] == ""
    ensures CurrentSlug(pathname) == DefaultSlug
  {
    if pathname.Some? {
      var segs := Split(pathname.value);
      FilterMultiset(segs, NonEmpty);
      assert multiset(Filter(segs, NonEmpty)) == multiset{};
    }
  }

  /** `handleHackathonChange`: the path that is pushed. */
  function PathFor(slug: string): (r: string)
    ensures |r| == |slug| + 1 && r[0] == '/'
    ensures r[1..] == slug
  {
    "/" + slug
  }

  /** Round trip: after choosing a hackathon, the selector reads the same
      slug back from the new path. */
  lemma SlugRoundTrip(slug: string)
    requires |slug| > 0 && '/' !in slug
    ensures CurrentSlug(Some(PathFor(slug))) == slug
  {
    var p := PathFor(slug);
    assert p[1..] == slug;
    SplitNoSlash(slug);
    assert Split(p) == ["", slug];
    assert Filter(["", slug], NonEmpty) == [slug] by {
      assert ["", slug][1..] == [slug];
      assert [slug][1..] == [];
    }
  }

  /** `currentHackathon`: the table entry for the current slug. The slug is
      never empty, so the lookup always runs. */
  function CurrentHackathon(pathname: Option<string>): (r: Option<Hackathon>)
    ensures r.Some? ==> r.value.slug == CurrentSlug(pathname) && r.value in Table
    ensures r.None? <==> forall i :: 0 <= i < |Table| ==> Table[i].slug != CurrentSlug(pathname)
  {
    BySlug(Table, CurrentSlug(pathname))
  }

  /** Every hackathon offered in the list can be chosen and is then shown as
      the current one. */
  lemma ChoosingShowsChoice(i: nat)
    requires i < |Table|
    ensures CurrentHackathon(Some(PathFor(Table[i].slug))) == Some(Table[i])
  {
    TableFacts();
    assert '/' !in Table[i].slug;
    SlugRoundTrip(Table[i].slug);
    BySlugFindsEntry(Table, i);
  }

  /** With no usable segment the selector shows the default hackathon. */
  lemma NoPathShowsDefault()
    ensures CurrentHackathon(None) == Default(Table)
  {
    TableFacts();
  }
}

=== FILE: shuffle.dfy ===
/** `shuffleArray` (app/page.tsx): the Fisher–Yates shuffle. For `i` from
    `n - 1` down to `1` it swaps position `i` with a position `j` drawn by
    `Math.floor(Math.random() * (i + 1))`. The random draws are an input here:
    `draws[k]` is the `j` of the `k`-th iteration, i.e. of `i = n - 1 - k`. */
module Shuffle {

  /** One draw per iteration, the `k`-th one within `[0, n - 1 - k]`. */
  predicate ValidDraws(n: nat, draws: seq<int>)
  {
    && |draws| == (if n == 0 then 0 else n - 1)
    && forall k :: 0 <= k < |draws| ==> 0 <= draws[k] <= n - 1 - k
  }

  /** `[a[i], a[j]] = [a[j], a[i]]` */
  function Swap<T>(a: seq<T>, i: nat, j: nat): (r: seq<T>)
    requires i < |a| && j < |a|
    ensures |r| == |a|
    ensures multiset(r) == multiset(a)
    ensures r[i] == a[j] && r[j] == a[i]
    ensures forall k :: 0 <= k < |a| && k != i && k != j ==> r[k] == a[k]
  {
    a[i := a[j]][j := a[i]]
  }

  /** The loop from iteration `i` downwards. */
  function ShuffleFrom<T>(a: seq<T>, i: int, draws: seq<int>): (r: seq<T>)
    requires -1 <= i < |a|
    requires |draws| == |a| - 1 || (|a| == 0 && |draws| == 0)
    requires forall k :: |a| - 1 - i <= k < |draws| ==> 0 <= draws[k] <= |a| - 1 - k
    ensures |r| == |a|
    ensures multiset(r) == multiset(a)
    decreases i + 1
  {
    if i <= 0 then a
    else ShuffleFrom(Swap(a, i, draws[|a| - 1 - i]), i - 1, draws)
  }

  /** `shuffleArray(array)`: a copy of `array` in the order the draws select. */
  function ShuffleArray<T>(xs: seq<T>, draws: seq<int>): (r: seq<T>)
    requires ValidDraws(|xs|, draws)
    ensures |r| == |xs|
    ensures multiset(r) == multiset(xs)
  {
    ShuffleFrom(xs, |xs| - 1, draws)
  }

  /** The draws that never move anything (`j == i` each time). */
  function StayDraws(n: nat): (r: seq<int>)
    ensures ValidDraws(n, r)
    ensures forall k :: 0 <= k < |r| ==> r[k] == n - 1 - k
  {
    if n == 0 then [] else seq(n - 1, k requires 0 <= k < n - 1 => n - 1 - k)
  }

  lemma {:induction false} ShuffleFromStay<T>(a: seq<T>, i: int)
    requires -1 <= i < |a|
    ensures ShuffleFrom(a, i, StayDraws(|a|)) == a
    decreases i + 1
  {
    if i > 0 {
      var d := StayDraws(|a|);
      SwapSelf(a, i);
      assert ShuffleFrom(a, i, d) == ShuffleFrom(a, i - 1, d) by {
        assert d[|a| - 1 - i] == i;
      }
      ShuffleFromStay(a, i - 1);
    }
  }

  lemma SwapSelf<T>(a: seq<T>, i: nat)
    requires i < |a|
    ensures Swap(a, i, i) == a
  {
  }

  /** With every draw equal to its own position the shuffle is the identity. */
  lemma ShuffleStay<T>(xs: seq<T>)
    ensures ShuffleArray(xs, StayDraws(|xs|)) == xs
  {
    ShuffleFromStay(xs, |xs| - 1);
  }
}

=== FILE: sorting.dfy ===
/** `Array.prototype.sort` with a comparator of the shape `(a, b) => key(b) - key(a)`:
    since ECMAScript 2019 the sort is stable, so the result is the unique
    ordering that is non-increasing in `key` and keeps equal keys in their
    input order. It is modelled as an insertion sort. An ascending sort by
    `key` is the same sort on `x => -key(x)`. */
module Sorting {
  import opened Common

  /** Non-increasing in `key` (every earlier element has a key at least as large). */
  predicate NonIncreasing<T>(s: seq<T>, key: T -> int)
  {
    forall i, j :: 0 <= i < j < |s| ==> key(s[i]) >= key(s[j])
  }

  /** No two elements share the same `id`. */
  predicate DistinctBy<T, K(==)>(s: seq<T>, id: T -> K)
  {
    forall i, j :: 0 <= i < j < |s| ==> id(s[i]) != id(s[j])
  }

  /** The elements whose key equals `k`. */
  function KeyEq<T>(key: T -> int, k: int): T -> bool
  {
    y => key(y) == k
  }

  /** Puts `x` in front of the first element whose key is not larger than its own. */
  function Insert<T>(x: T, s: seq<T>, key: T -> int): (r: seq<T>)
    ensures multiset(r) == multiset(s) + multiset{x}
    ensures |r| == |s| + 1
    decreases |s|
  {
    if |s| == 0 || key(x) >= key(s[0]) then [x] + s
    else
      assert s == [s[0]] + s[1..];
      [s[0]] + Insert(x, s[1..], key)
  }

  lemma {:induction false} InsertSorted<T>(x: T, s: seq<T>, key: T -> int)
    requires NonIncreasing(s, key)
    ensures NonIncreasing(Insert(x, s, key), key)
    decreases |s|
  {
    if |s| > 0 && key(x) < key(s[0]) {
      InsertSorted(x, s[1..], key);
      var rest := Insert(x, s[1..], key);
      var r := [s[0]] + rest;
      forall j | 0 <= j < |rest| ensures key(s[0]) >= key(rest[j]) {
        assert rest[j] in multiset(rest);
        if rest[j] != x {
          assert rest[j] in multiset(s[1..]);
          var k :| 0 <= k < |s[1..]| && s[1..][k] == rest[j];
          assert s[k + 1] == rest[j];
        }
      }
      forall i, j | 0 <= i < j < |r| ensures key(r[i]) >= key(r[j]) {
        assert r[j] == rest[j - 1];
        if i > 0 {
          assert r[i] == rest[i - 1];
        }
      }
    }
  }

  /** Stable sort, descending by `key`. */
  function SortDesc<T>(xs: seq<T>, key: T -> int): (r: seq<T>)
    ensures multiset(r) == multiset(xs)
    ensures |r| == |xs|
    ensures NonIncreasing(r, key)
    decreases |xs|
  {
    if |xs| == 0 then []
    else
      assert xs == [xs[0]] + xs[1..];
      InsertSorted(xs[0], SortDesc(xs[1..], key), key);
      Insert(xs[0], SortDesc(xs[1..], key), key)
  }

  lemma SortDescMembers<T>(xs: seq<T>, key: T -> int)
    ensures forall y :: y in SortDesc(xs, key) <==> y in xs
  {
    var r := SortDesc(xs, key);
    forall y ensures y in r <==> y in xs {
      assert y in r <==> y in multiset(r);
      assert y in xs <==> y in multiset(xs);
    }
  }

  lemma {:induction false} InsertSum<T>(x: T, s: seq<T>, key: T -> int, f: T -> int)
    ensures SumOf(Insert(x, s, key), f) == f(x) + SumOf(s, f)
    decreases |s|
  {
    if |s| == 0 || key(x) >= key(s[0]) {
      assert ([x] + s)[1..] == s;
    } else {
      InsertSum(x, s[1..], key, f);
      assert ([s[0]] + Insert(x, s[1..], key))[1..] == Insert(x, s[1..], key);
    }
  }

  /** Sorting does not change any sum taken over the elements. */
  lemma {:induction false} SortDescSum<T>(xs: seq<T>, key: T -> int, f: T -> int)
    ensures SumOf(SortDesc(xs, key), f) == SumOf(xs, f)
    decreases |xs|
  {
    if |xs| > 0 {
      SortDescSum(xs[1..], key, f);
      InsertSum(xs[0], SortDesc(xs[1..], key), key, f);
    }
  }

  lemma {:induction false} InsertDistinct<T, K>(x: T, s: seq<T>, key: T -> int, id: T -> K)
    requires DistinctBy(s, id)
    requires forall i :: 0 <= i < |s| ==> id(s[i]) != id(x)
    ensures DistinctBy(Insert(x, s, key), id)
    decreases |s|
  {
    if |s| > 0 && key(x) < key(s[0]) {
      var rest := Insert(x, s[1..], key);
      InsertDistinct(x, s[1..], key, id);
      forall j | 0 <= j < |rest| ensures id(s[0]) != id(rest[j]) {
        assert rest[j] in multiset(rest);
        if rest[j] != x {
          assert rest[j] in s[1..];
          var k :| 0 <= k < |s[1..]| && s[1..][k] == rest[j];
          assert s[k + 1] == rest[j];
        }
      }
      var r := [s[0]] + rest;
      forall i, j | 0 <= i < j < |r| ensures id(r[i]) != id(r[j]) {
        if i > 0 {
          assert r[i] == rest[i - 1] && r[j] == rest[j - 1];
        } else {
          assert r[j] == rest[j - 1];
        }
      }
    }
  }

  /** Sorting keeps distinct identities distinct. */
  lemma {:induction false} SortDescDistinct<T, K>(xs: seq<T>, key: T -> int, id: T -> K)
    requires DistinctBy(xs, id)
    ensures DistinctBy(SortDesc(xs, key), id)
    decreases |xs|
  {
    if |xs| > 0 {
      var rest := SortDesc(xs[1..], key);
      SortDescDistinct(xs[1..], key, id);
      forall i | 0 <= i < |rest| ensures id(rest[i]) != id(xs[0]) {
        assert rest[i] in multiset(xs[1..]);
        var k :| 0 <= k < |xs[1..]| && xs[1..][k] == rest[i];
        assert xs[k + 1] == rest[i];
      }
      InsertDistinct(xs[0], rest, key, id);
    }
  }

  lemma {:induction false} InsertStable<T>(x: T, s: seq<T>, key: T -> int, k: int)
    ensures Filter(Insert(x, s, key), KeyEq(key, k))
         == (if key(x) == k then [x] else []) + Filter(s, KeyEq(key, k))
    decreases |s|
  {
    var p := KeyEq(key, k);
    if |s| == 0 || key(x) >= key(s[0]) {
      assert ([x] + s)[1..] == s;
    } else {
      InsertStable(x, s[1..], key, k);
      var rest := Insert(x, s[1..], key);
      assert ([s[0]] + rest)[1..] == rest;
      if key(x) == k {
        // s[0] has a strictly larger key than x, so it is filtered out
        assert !p(s[0]);
      }
    }
  }

  /** Stability: the elements sharing one key keep their input order. */
  lemma {:induction false} SortDescStable<T>(xs: seq<T>, key: T -> int, k: int)
    ensures Filter(SortDesc(xs, key), KeyEq(key, k)) == Filter(xs, KeyEq(key, k))
    decreases |xs|
  {
    if |xs| > 0 {
      SortDescStable(xs[1..], key, k);
      InsertStable(xs[0], SortDesc(xs[1..], key), key, k);
    }
  }

  /** The head of the sorted list has a key at least that of every input
      element. */
  lemma SortDescHeadBeats<T>(xs: seq<T>, key: T -> int, j: nat)
    requires j < |xs|
    ensures |SortDesc(xs, key)| > 0 && key(SortDesc(xs, key)[0]) >= key(xs[j])
  {
    var r := SortDesc(xs, key);
    assert xs[j] in multiset(xs);
    var q :| 0 <= q < |r| && r[q] == xs[j];
  }

  /** Every element of the sorted list comes from some input position. */
  lemma SortDescFrom<T>(xs: seq<T>, key: T -> int, i: nat) returns (k: nat)
    requires i < |SortDesc(xs, key)|
    ensures k < |xs| && xs[k] == SortDesc(xs, key)[i]
  {
    var r := SortDesc(xs, key);
    assert r[i] in multiset(r);
    k :| 0 <= k < |xs| && xs[k] == r[i];
  }

  /** A prefix of a non-increasing list is non-increasing. */
  lemma NonIncreasingPrefix<T>(s: seq<T>, n: nat, key: T -> int)
    requires n <= |s| && NonIncreasing(s, key)
    ensures NonIncreasing(s[..n], key)
  {
    forall i, j | 0 <= i < j < n ensures key(s[..n][i]) >= key(s[..n][j]) {
      assert s[..n][i] == s[i] && s[..n][j] == s[j];
    }
  }

  /** A prefix of a list with distinct identities has distinct identities. */
  lemma DistinctByPrefix<T, K>(s: seq<T>, n: nat, id: T -> K)
    requires n <= |s| && DistinctBy(s, id)
    ensures DistinctBy(s[..n], id)
  {
    forall i, j | 0 <= i < j < n ensures id(s[..n][i]) != id(s[..n][j]) {
      assert s[..n][i] == s[i] && s[..n][j] == s[j];
    }
  }

  /** Every input element has a position in the sorted list. */
  lemma SortDescHas<T>(xs: seq<T>, key: T -> int, k: nat) returns (i: nat)
    requires k < |xs|
    ensures i < |SortDesc(xs, key)| && SortDesc(xs, key)[i] == xs[k]
  {
    var r := SortDesc(xs, key);
    assert xs[k] in multiset(xs);
    i :| 0 <= i < |r| && r[i] == xs[k];
  }
}

=== FILE: tally.dfy ===
/** The accumulation idiom of the analytics view:
    `items.forEach(it => { acc[it.key] ??= {total: 0, count: 0}; acc[it.key].total += w; acc[it.key].count += 1 })`
    followed by `Object.entries(acc)`. For string keys that are not array
    indices, `Object.entries` lists keys in insertion order, i.e. in the order
    of their first occurrence; `Tally` keeps that order. */
module Tally {
  import opened Common
  import Sorting

  /** One `Object.entries` row: a key with the number of items carrying it and
      the sum of their weights. */
  datatype Stat<K> = Stat(key: K, total: int, count: nat)

  /** The keys of `s` without repetitions, in order of first occurrence. */
  function Dedup<K(==)>(s: seq<K>): (r: seq<K>)
    ensures forall i :: 0 <= i < |s| ==> s[i] in r
    ensures forall i :: 0 <= i < |r| ==> r[i] in s
    ensures forall i, j :: 0 <= i < j < |r| ==> r[i] != r[j]
    decreases |s|
  {
    if |s| == 0 then []
    else
      var d := Dedup(s[..|s| - 1]);
      assert s == s[..|s| - 1] + [s[|s| - 1]];
      if s[|s| - 1] in d then d else d + [s[|s| - 1]]
  }

  function Keys<K>(items: seq<(K, int)>): (r: seq<K>)
    ensures |r| == |items|
    ensures forall i :: 0 <= i < |items| ==> r[i] == items[i].0
  {
    seq(|items|, i requires 0 <= i < |items| => items[i].0)
  }

  function KeyIs<K(==)>(k: K): ((K, int)) -> bool
  {
    (it: (K, int)) => it.0 == k
  }

  function Weight<K>(it: (K, int)): int
  {
    it.1
  }

  /** The items carrying key `k`, in order. */
  function Matching<K(==)>(items: seq<(K, int)>, k: K): seq<(K, int)>
  {
    Filter(items, KeyIs(k))
  }

  /** The number of items carrying key `k`. */
  function CountOf<K(==)>(items: seq<(K, int)>, k: K): nat
  {
    |Matching(items, k)|
  }

  /** The sum of the weights of the items carrying key `k`. */
  function TotalOf<K(==)>(items: seq<(K, int)>, k: K): int
  {
    SumOf(Matching(items, k), Weight)
  }

  /** One step of the `forEach`: adds an item to the entry of its key, or
      opens a new entry at the end when the key is new. */
  function Bump<K(==)>(t: seq<Stat<K>>, k: K, w: int): seq<Stat<K>>
    decreases |t|
  {
    if |t| == 0 then [Stat(k, w, 1)]
    else if t[0].key == k then [Stat(k, t[0].total + w, t[0].count + 1)] + t[1..]
    else [t[0]] + Bump(t[1..], k, w)
  }

  /** The whole `forEach` over `items`. */
  function Tally<K(==)>(items: seq<(K, int)>): seq<Stat<K>>
    decreases |items|
  {
    if |items| == 0 then []
    else
      var last := items[|items| - 1];
      Bump(Tally(items[..|items| - 1]), last.0, last.1)
  }

  /** The declarative meaning of a tally: one entry per distinct key, in order of
      first occurrence, holding that key's item count and weight sum. */
  function TallySpec<K(==)>(items: seq<(K, int)>): seq<Stat<K>>
  {
    var d := Dedup(Keys(items));
    seq(|d|, i requires 0 <= i < |d| => Stat(d[i], TotalOf(items, d[i]), CountOf(items, d[i])))
  }

  function StatKey<K>(s: Stat<K>): K
  {
    s.key
  }

  function StatCount<K>(s: Stat<K>): int
  {
    s.count
  }

  lemma {:induction false} BumpFound<K>(t: seq<Stat<K>>, k: K, w: int, i: nat)
    requires i < |t| && t[i].key == k
    requires forall j :: 0 <= j < i ==> t[j].key != k
    ensures Bump(t, k, w) == t[i := Stat(k, t[i].total + w, t[i].count + 1)]
    decreases |t|
  {
    if i > 0 {
      BumpFound(t[1..], k, w, i - 1);
    }
  }

  lemma {:induction false} BumpNew<K>(t: seq<Stat<K>>, k: K, w: int)
    requires forall j :: 0 <= j < |t| ==> t[j].key != k
    ensures Bump(t, k, w) == t + [Stat(k, w, 1)]
    decreases |t|
  {
    if |t| > 0 {
      BumpNew(t[1..], k, w);
    }
  }

  /** Counting and summing over `items + [it]` adds the contribution of `it`. */
  lemma MatchingSnoc<K>(items: seq<(K, int)>, it: (K, int), k: K)
    ensures CountOf(items + [it], k) == CountOf(items, k) + (if it.0 == k then 1 else 0)
    ensures TotalOf(items + [it], k) == TotalOf(items, k) + (if it.0 == k then it.1 else 0)
  {
    FilterAppend(items, [it], KeyIs(k));
    assert Filter([it], KeyIs(k)) == if it.0 == k then [it] else [];
    SumOfAppend(Matching(items, k), Filter([it], KeyIs(k)), Weight);
  }

  /** A key that occurs in no item has count and total zero. */
  lemma {:induction false} AbsentKey<K>(items: seq<(K, int)>, k: K)
    requires forall i :: 0 <= i < |items| ==> items[i].0 != k
    ensures Matching(items, k) == []
    decreases |items|
  {
    if |items| > 0 {
      AbsentKey(items[1..], k);
    }
  }

  /** Counts and totals of every key after appending one item. */
  lemma SnocCounts<K>(pre: seq<(K, int)>, it: (K, int))
    ensures forall k :: CountOf(pre + [it], k) == CountOf(pre, k) + (if it.0 == k then 1 else 0)
    ensures forall k :: TotalOf(pre + [it], k) == TotalOf(pre, k) + (if it.0 == k then it.1 else 0)
  {
    forall k ensures CountOf(pre + [it], k) == CountOf(pre, k) + (if it.0 == k then 1 else 0)
                 && TotalOf(pre + [it], k) == TotalOf(pre, k) + (if it.0 == k then it.1 else 0)
    {
      MatchingSnoc(pre, it, k);
    }
  }

  lemma DedupSnoc<K>(pre: seq<(K, int)>, it: (K, int))
    ensures var d := Dedup(Keys(pre));
            Dedup(Keys(pre + [it])) == if it.0 in d then d else d + [it.0]
  {
    var items := pre + [it];
    assert Keys(items) == Keys(pre) + [it.0];
    assert Keys(items)[..|pre|] == Keys(pre);
  }

  lemma SpecSnocFound<K>(pre: seq<(K, int)>, it: (K, int), i: nat)
    requires i < |Dedup(Keys(pre))| && Dedup(Keys(pre))[i] == it.0
    ensures var t := TallySpec(pre);
            TallySpec(pre + [it]) == t[i := Stat(it.0, t[i].total + it.1, t[i].count + 1)]
  {
    var t := TallySpec(pre);
    var t' := TallySpec(pre + [it]);
    SpecSnocFoundAt(pre, it, i, i);
    forall j | 0 <= j < |t| ensures t'[j] == t[i := Stat(it.0, t[i].total + it.1, t[i].count + 1)][j] {
      SpecSnocFoundAt(pre, it, i, j);
    }
  }

  /** One entry of `SpecSnocFound`. */
  lemma SpecSnocFoundAt<K>(pre: seq<(K, int)>, it: (K, int), i: nat, j: nat)
    requires i < |Dedup(Keys(pre))| && Dedup(Keys(pre))[i] == it.0
    requires j < |Dedup(Keys(pre))|
    ensures |TallySpec(pre + [it])| == |TallySpec(pre)|
    ensures var t := TallySpec(pre);
            TallySpec(pre + [it])[j] == t[i := Stat(it.0, t[i].total + it.1, t[i].count + 1)][j]
  {
    var d := Dedup(Keys(pre));
    DedupSnoc(pre, it);
    assert Dedup(Keys(pre + [it])) == d;
    TallySpecAt(pre, j);
    TallySpecAt(pre + [it], j);
    TallySpecAt(pre, i);
    MatchingSnoc(pre, it, d[j]);
  }

  /** The keys of the declarative tally are the distinct keys. */
  lemma TallySpecKeys<K>(items: seq<(K, int)>)
    ensures |TallySpec(items)| == |Dedup(Keys(items))|
    ensures forall j :: 0 <= j < |TallySpec(items)| ==> TallySpec(items)[j].key == Dedup(Keys(items))[j]
  {
  }

  /** One entry of the declarative tally. */
  lemma TallySpecAt<K>(items: seq<(K, int)>, j: nat)
    requires j < |Dedup(Keys(items))|
    ensures |TallySpec(items)| == |Dedup(Keys(items))|
    ensures var k := Dedup(Keys(items))[j];
            TallySpec(items)[j] == Stat(k, TotalOf(items, k), CountOf(items, k))
  {
  }

  lemma SpecSnocNew<K>(pre: seq<(K, int)>, it: (K, int))
    requires it.0 !in Dedup(Keys(pre))
    ensures TallySpec(pre + [it]) == TallySpec(pre) + [Stat(it.0, it.1, 1)]
  {
    DedupSnoc(pre, it);
    SnocCounts(pre, it);
    var t := TallySpec(pre);
    var t' := TallySpec(pre + [it]);
    var d := Dedup(Keys(pre));
    assert it.0 !in Keys(pre);
    AbsentKey(pre, it.0);
    assert |t'| == |t| + 1;
    forall j | 0 <= j < |t'| ensures t'[j] == (t + [Stat(it.0, it.1, 1)])[j] {
      if j < |t| {
        assert d[j] != it.0;
      }
    }
  }

  /** One `forEach` step on the declarative tally gives the declarative tally
      of the longer list. */
  lemma SpecBump<K>(pre: seq<(K, int)>, it: (K, int))
    ensures Bump(TallySpec(pre), it.0, it.1) == TallySpec(pre + [it])
  {
    var d := Dedup(Keys(pre));
    if it.0 in d {
      var i :| 0 <= i < |d| && d[i] == it.0;
      SpecBumpFound(pre, it, i);
    } else {
      SpecBumpNew(pre, it);
    }
  }

  lemma SpecBumpFound<K>(pre: seq<(K, int)>, it: (K, int), i: nat)
    requires i < |Dedup(Keys(pre))| && Dedup(Keys(pre))[i] == it.0
    ensures Bump(TallySpec(pre), it.0, it.1) == TallySpec(pre + [it])
  {
    var t := TallySpec(pre);
    TallySpecKeys(pre);
    SpecSnocFound(pre, it, i);
    BumpFound(t, it.0, it.1, i);
  }

  lemma SpecBumpNew<K>(pre: seq<(K, int)>, it: (K, int))
    requires it.0 !in Dedup(Keys(pre))
    ensures Bump(TallySpec(pre), it.0, it.1) == TallySpec(pre + [it])
  {
    TallySpecKeys(pre);
    SpecSnocNew(pre, it);
    BumpNew(TallySpec(pre), it.0, it.1);
  }

  /** The `forEach` accumulation computes exactly the declarative tally. */
  lemma {:induction false} TallyCorrect<K>(items: seq<(K, int)>)
    ensures Tally(items) == TallySpec(items)
    decreases |items|
  {
    if |items| > 0 {
      var n := |items| - 1;
      var pre := items[..n];
      TallyCorrect(pre);
      SpecBump(pre, items[n]);
      assert items == pre + [items[n]];
    }
  }

  /** Every key of the tally is a key of some item and vice versa, each key
      occurs once, and every entry holds its key's count and weight sum. */
  lemma TallyEntries<K>(items: seq<(K, int)>)
    ensures forall k :: k in Keys(items) <==> exists i :: 0 <= i < |Tally(items)| && Tally(items)[i].key == k
    ensures Sorting.DistinctBy(Tally(items), StatKey)
    ensures forall i :: 0 <= i < |Tally(items)| ==>
              Tally(items)[i].count == CountOf(items, Tally(items)[i].key) > 0
              && Tally(items)[i].total == TotalOf(items, Tally(items)[i].key)
  {
    TallyCorrect(items);
    TallySpecKeys(items);
    var d := Dedup(Keys(items));
    var t := Tally(items);
    forall k | k in Keys(items) ensures exists i :: 0 <= i < |t| && t[i].key == k {
      var i :| 0 <= i < |d| && d[i] == k;
      assert t[i].key == k;
    }
    forall i | 0 <= i < |t|
      ensures t[i].count == CountOf(items, t[i].key) > 0 && t[i].total == TotalOf(items, t[i].key)
    {
      TallySpecAt(items, i);
      CountPositive(items, d[i]);
    }
  }

  /** A key that occurs has a positive count. */
  lemma CountPositive<K>(items: seq<(K, int)>, k: K)
    requires k in Keys(items)
    ensures CountOf(items, k) > 0
  {
    var j :| 0 <= j < |items| && Keys(items)[j] == k;
    FilterMultiset(items, KeyIs(k));
    assert items[j] in multiset(Matching(items, k));
  }

  /** The counts add up to the number of items. */
  lemma {:induction false} TallyCountSum<K>(items: seq<(K, int)>)
    ensures SumOf(Tally(items), StatCount) == |items|
    decreases |items|
  {
    if |items| > 0 {
      var n := |items| - 1;
      var it := items[n];
      TallyCountSum(items[..n]);
      BumpCountSum(Tally(items[..n]), it.0, it.1);
    }
  }

  lemma {:induction false} BumpCountSum<K>(t: seq<Stat<K>>, k: K, w: int)
    ensures SumOf(Bump(t, k, w), StatCount) == SumOf(t, StatCount) + 1
    decreases |t|
  {
    if |t| > 0 && t[0].key != k {
      BumpCountSum(t[1..], k, w);
      assert ([t[0]] + Bump(t[1..], k, w))[1..] == Bump(t[1..], k, w);
    } else if |t| > 0 {
      assert ([Stat(k, t[0].total + w, t[0].count + 1)] + t[1..])[1..] == t[1..];
    }
  }

  /** A key's count is the number of times it occurs among the item keys. */
  lemma {:induction false} CountOfIsMultiplicity<K>(items: seq<(K, int)>, k: K)
    ensures CountOf(items, k) == multiset(Keys(items))[k]
    decreases |items|
  {
    if |items| > 0 {
      CountOfIsMultiplicity(items[1..], k);
      assert Keys(items) == [items[0].0] + Keys(items[1..]);
    }
  }

  // ---------------------------------------------------------------------------
  // The tally ordered for display

  /** The rows of the tally, ordered by `key` (highest first). */
  function Ranked<K(==)>(items: seq<(K, int)>, key: Stat<K> -> int): (r: seq<Stat<K>>)
    ensures |r| == |Tally(items)|
    ensures multiset(r) == multiset(Tally(items))
    ensures Sorting.NonIncreasing(r, key)
  {
    Sorting.SortDesc(Tally(items), key)
  }

  /** Every ranked row is a distinct key with its number of occurrences. */
  lemma RankedEntries<K>(items: seq<(K, int)>, key: Stat<K> -> int)
    ensures Sorting.DistinctBy(Ranked(items, key), StatKey)
    ensures forall i :: 0 <= i < |Ranked(items, key)| ==>
              Ranked(items, key)[i].count == multiset(Keys(items))[Ranked(items, key)[i].key] > 0
  {
    var t := Tally(items);
    var r := Ranked(items, key);
    TallyEntries(items);
    Sorting.SortDescDistinct(t, key, StatKey);
    forall i | 0 <= i < |r| ensures r[i].count == multiset(Keys(items))[r[i].key] > 0 {
      var j := Sorting.SortDescFrom(t, key, i);
      CountOfIsMultiplicity(items, r[i].key);
    }
  }

  /** One ranked row: an occurring key with its number of occurrences. */
  lemma RankedRow<K>(items: seq<(K, int)>, key: Stat<K> -> int, i: nat)
    requires i < |Ranked(items, key)|
    ensures Ranked(items, key)[i].key in Keys(items)
    ensures Ranked(items, key)[i].count == multiset(Keys(items))[Ranked(items, key)[i].key] > 0
  {
    RankedEntries(items, key);
  }

  /** The ranked keys are exactly the item keys. */
  lemma RankedKeys<K>(items: seq<(K, int)>, key: Stat<K> -> int)
    ensures forall k :: k in Keys(items) <==> exists i :: 0 <= i < |Ranked(items, key)| && Ranked(items, key)[i].key == k
  {
    var t := Tally(items);
    var r := Ranked(items, key);
    TallyEntries(items);
    forall k | k in Keys(items) ensures exists i :: 0 <= i < |r| && r[i].key == k {
      var j :| 0 <= j < |t| && t[j].key == k;
      var i := Sorting.SortDescHas(t, key, j);
    }
    forall k | exists i :: 0 <= i < |r| && r[i].key == k ensures k in Keys(items) {
      var i :| 0 <= i < |r| && r[i].key == k;
      var j := Sorting.SortDescFrom(t, key, i);
    }
  }

  /** The ranked counts add up to the number of items. */
  lemma RankedCountSum<K>(items: seq<(K, int)>, key: Stat<K> -> int)
    ensures SumOf(Ranked(items, key), StatCount) == |items|
  {
    TallyCountSum(items);
    Sorting.SortDescSum(Tally(items), key, StatCount);
  }

  /** A sequence without repetitions has as many distinct elements as entries. */
  lemma {:induction false} DistinctCard<K>(d: seq<K>)
    requires forall i, j :: 0 <= i < j < |d| ==> d[i] != d[j]
    ensures |set k | k in d| == |d|
    decreases |d|
  {
    if |d| > 0 {
      DistinctCard(d[1..]);
      assert (set k | k in d) == {d[0]} + (set k | k in d[1..]);
      assert d[0] !in d[1..];
    }
  }

  /** The tally has one row per distinct key. */
  lemma TallyRows<K>(items: seq<(K, int)>)
    ensures |Tally(items)| == |set k | k in Keys(items)|
  {
    TallyCorrect(items);
    var d := Dedup(Keys(items));
    DistinctCard(d);
    assert (set k | k in d) == (set k | k in Keys(items));
  }
}

=== FILE: validation.dfy ===
/** The cleaning step of the projects API route (app/api/projects/route.ts):
    the upstream JSON body is kept as it is, except that an array under
    `projects` loses every record without a truthy `name`, a defined `id` and
    a truthy `slug`. The HTTP fetch itself is not part of this model; its
    parsed body is the input. */
module Validation {
  import opened Common

  /** A JSON value as JavaScript sees it after `response.json()`. Numbers are
      integers here; `Undefined` stands for a missing property. */
  datatype JsValue =
    | Undefined
    | Null
    | Bool(b: bool)
    | Num(n: int)
    | Str(s: string)
    | Arr(items: seq<JsValue>)
    | Obj(fields: map<string, JsValue>)

  /** JavaScript truthiness. */
  predicate Truthy(v: JsValue)
  {
    match v
    case Undefined => false
    case Null => false
    case Bool(b) => b
    case Num(n) => n != 0
    case Str(s) => |s| > 0
    case Arr(_) => true
    case Obj(_) => true
  }

  /** `v[key]` for a value that is not null or undefined: an object's own
      field, or undefined for anything else. */
  function Get(v: JsValue, key: string): (r: JsValue)
    ensures !v.Obj? ==> r == Undefined
    ensures v.Obj? && key !in v.fields ==> r == Undefined
  {
    if v.Obj? && key in v.fields then v.fields[key] else Undefined
  }

  /** `project && project.name && project.id !== undefined && project.slug` */
  predicate KeepRecord(v: JsValue)
  {
    Truthy(v) && Truthy(Get(v, "name")) && Get(v, "id") != Undefined && Truthy(Get(v, "slug"))
  }

  /** Only objects can pass: every other truthy value has no `name`. */
  lemma KeptRecordsAreObjects(v: JsValue)
    requires KeepRecord(v)
    ensures v.Obj? && "name" in v.fields && "id" in v.fields && "slug" in v.fields
  {
  }

  /** `data.projects.filter(...)` */
  function CleanProjects(records: seq<JsValue>): (r: seq<JsValue>)
    ensures forall i :: 0 <= i < |r| ==> KeepRecord(r[i])
  {
    Filter(records, KeepRecord)
  }

  /** The kept records keep their input order, and a record is dropped only
      when it fails the test: each passing record is kept as many times as it
      occurs. */
  lemma CleanProjectsExact(records: seq<JsValue>)
    ensures Subseq(CleanProjects(records), records)
    ensures forall v :: multiset(CleanProjects(records))[v] == if KeepRecord(v) then multiset(records)[v] else 0
  {
    FilterIsSubseq(records, KeepRecord);
    FilterMultiset(records, KeepRecord);
  }

  lemma CleanProjectsIdempotent(records: seq<JsValue>)
    ensures CleanProjects(CleanProjects(records)) == CleanProjects(records)
  {
    FilterIdempotent(records, KeepRecord);
  }

  /** What the route answers: the body, or the 500 error. */
  datatype Response = Ok(body: JsValue) | ServerError

  /** Whether the body holds an array under `projects`
      (`data.projects && Array.isArray(data.projects)`; an array is truthy). */
  predicate HasProjectArray(data: JsValue)
  {
    data.Obj? && "projects" in data.fields && data.fields["projects"].Arr?
  }

  /** Lines 20-22 of the route on a parsed body. Reading `projects` off `null`
      throws, which the route turns into its 500 response. */
  function CleanBody(data: JsValue): (r: Response)
    ensures r.ServerError? <==> data == Null || data == Undefined
    ensures r.Ok? && !HasProjectArray(data) ==> r.body == data
    ensures HasProjectArray(data) ==>
              && r.Ok? && r.body.Obj?
              && r.body.fields.Keys == data.fields.Keys
              && r.body.fields["projects"] == Arr(CleanProjects(data.fields["projects"].items))
              && forall k :: k in data.fields && k != "projects" ==> r.body.fields[k] == data.fields[k]
  {
    if data == Null || data == Undefined then ServerError
    else if HasProjectArray(data) then
      Ok(Obj(data.fields["projects" := Arr(CleanProjects(data.fields["projects"].items))]))
    else Ok(data)
  }

  /** Cleaning an already cleaned body changes nothing. */
  lemma CleanBodyIdempotent(data: JsValue)
    requires CleanBody(data).Ok?
    ensures CleanBody(CleanBody(data).body) == CleanBody(data)
  {
    if HasProjectArray(data) {
      CleanProjectsIdempotent(data.fields["projects"].items);
      var fields := data.fields["projects" := Arr(CleanProjects(data.fields["projects"].items))];
      assert fields["projects" := Arr(CleanProjects(fields["projects"].items))] == fields;
    }
  }
}
